=== FILE: README.md ===
# A verified model of a minimal TFTP server

This project models the protocol engine of a small Go TFTP server (RFC 1350)
in Dafny and proves properties of the model. The engine has two parts:

- **The packet codec** (`types.go`). It encodes and decodes the five packet
  kinds of section 5 of RFC 1350: read and write requests, Data, Ack and Err.
- **The server** (`server.go`). It has four pieces:
  - `Serve`, the listener loop. It decodes each datagram as a read request,
    then as a write request, and otherwise drops it. While writes are
    disabled, it refuses a write request with an Err packet but still
    starts the upload.
  - `handleRead`, the download session. It sends the payload in 512-byte
    blocks and sends each block at most `Retries` times in all, until the
    matching Ack arrives.
  - `handleWrite`, the upload session. It sends Ack 0 first. Then it stores
    and acknowledges each Data datagram until a short one arrives.
  - The server object. Its fields hold the configuration, and `Serve`
    updates its retry and timeout fields.

## How the model is built

- **Modules.** The files follow the source:
  - `types.dfy` (module `Types`) is the codec.
  - `net.dfy` (module `Net`) describes a session socket as data.
  - `dispatch.dfy` (module `Dispatch`) specifies the listener.
  - `download.dfy` and `upload.dfy` specify the two sessions.
  - `server.dfy` (module `Server`) is the imperative server.
- **Bytes.** Go strings are byte strings here (`seq<byte>`). Block numbers
  are a `uint16` newtype, so the `Block++` in `Data.MarshalBinary` wraps
  explicitly at 2^16.
- **Sockets.** A socket is a sequence of read results:
  - `Timeout`, `Datagram(bytes)` or `ReadFailed` for a session socket;
  - `Packet(from, bytes)` or `ListenFailed` for the listening socket.

  Writes are recorded in a transcript. `failingWrite` gives the index of the
  first write that fails. A `Disk` value says whether creating the upload
  file fails and which file write fails.
- **Receive buffers.**
  - `handleRead` and `handleWrite` reuse one 516-byte buffer for every read.
  - Every decoder runs on the whole buffer, not on the `n` bytes just read.
    So bytes left over from an earlier, longer datagram are part of what
    gets decoded. `Net.Overlay` models this.
  - `Serve` allocates a fresh zero-filled buffer per datagram.
- **Specification functions.**
  - `Download.Run` and `Upload.Run` define what a session does, one loop
    pass at a time.
  - `Dispatch.Listen` defines what the listener does.
  - The imperative methods `Serve`, `HandleRead` and `HandleWrite` are
    proved equal to these functions.
  - The lemmas about the functions carry the protocol properties: how
    downloads are laid out, the retry budget, cooperative transfers, and
    how errors end a session.
- **Imperative code.**
  - `Data` is a class: a block counter, the payload and a cursor.
  - `TFTPServer` is a class whose `Serve` method updates `retries` and
    `timeout`.
  - The bodies of `handleRead` (NEXTPACKET with RETRY inside) and of
    `handleWrite` are split into smaller methods: `NextBlock`, `SendBlock`,
    `SendOnce` and `StoreDatagram`. The split follows the Go loop
    structure, and each method is proved against the specification
    function.

## Model

| member | source | states |
|---|---|---|
| Types.BE | types.go:104 | binary.Write of a uint16 in big-endian order: two bytes, the high byte first, whose value is the number written |
| Types.U16 | types.go:140 | binary.Read of a big-endian uint16: the number whose two big-endian bytes are the buffer's first two |
| Types.ReadString | types.go:151-163 | bytes.Buffer.ReadString(0) returns the input split after its first NUL. A NUL is found exactly when the input has one. The token ends in that NUL and holds no other; with no NUL, the whole input comes back |
| Types.TrimNul | types.go:157 | strings.TrimRight(s, "\x00") returns a prefix of s. The prefix does not end in NUL, and everything cut off is NUL |
| Types.TrimmedToken | types.go:72-77 | After trimming, a string field is exactly the bytes before the first NUL. It is NUL-free, and field + NUL + rest rebuilds the input |
| Types.UnmarshalWriteReq | types.go:57-84 | WriteReq decode. Success implies opcode 2, mode exactly "octet" and a NUL-free filename. Any other opcode gives a wrong-opcode failure |
| Types.WriteReqMode | types.go:68-83 | A write request with both fields terminated decodes exactly when its mode equals "octet" byte for byte. Bytes after the mode are ignored |
| Types.WriteReqModeCaseSensitive | types.go:79-81 | The write-request mode check is case-sensitive: "OCTET" is refused |
| Types.WriteReqUnterminatedMode | types.go:72-77 | A write request whose mode lacks its final NUL is still accepted |
| Types.MarshalReadReq | types.go:91-132 | ReadReq encode is opcode 1, the filename, a NUL, the mode and a final NUL. An empty mode is sent as "octet" |
| Types.UnmarshalReadReq | types.go:134-178 | ReadReq decode. Success implies opcode 1, a NUL-free filename and a raw mode that lower-cases to "octet". The filename, a NUL, the mode and a NUL are the first bytes after the opcode, so both fields come from the buffer; whatever follows them is ignored. Any other opcode gives a wrong-opcode failure |
| Types.ReadReqUnterminated | types.go:151-163 | A read request whose filename, or whose mode, has no NUL after it fails with Unterminated |
| Types.ReadReqRoundTrip | types.go:91-178 | Decoding an encoded read request returns it when the filename is NUL-free and the mode is empty or lower-cases to "octet". This holds whatever bytes follow the request in the buffer. An empty mode comes back as "octet" |
| Types.ToLower | types.go:171 | strings.ToLower on ASCII: the same length, no upper-case letter left, and each byte either unchanged or its letter's lower case |
| Types.ReadReqModeIgnoresCase | types.go:171-175 | The read-request mode check ignores case: "OCTET" and "Octet" are accepted, whatever bytes follow the request |
| Types.ReadReqEmptyMode | types.go:165-169 | A read request with an empty, terminated mode fails with EmptyMode, whatever bytes follow it |
| Types.ReadReqOtherMode | types.go:171-175 | A read request whose terminated, non-empty mode does not lower-case to "octet" fails with UnsupportedMode, whatever bytes follow it |
| Types.Data.constructor | types.go:181-184 | A fresh Data starts at block 0 with the whole payload unread |
| Types.Data.MarshalBinary | types.go:186-209 | The block number goes up by one mod 2^16. The output is opcode 3, that block and the next min(512, remaining) payload bytes, and the cursor moves past exactly those bytes |
| Types.UnmarshalData | types.go:211-231 | Data decode succeeds exactly when the buffer has 4 to 516 bytes and opcode 3. The block is bytes 2-3 and the payload is everything after them |
| Types.DataRoundTrip | types.go:186-231 | Decoding an encoded Data packet returns its block and chunk, for any chunk of at most 512 bytes |
| Types.MarshalAck | types.go:237-256 | Ack encode is 4 bytes long |
| Types.UnmarshalAck | types.go:258-273 | Ack decode succeeds exactly when there are at least 4 bytes and opcode 4. Re-encoding the result gives back the first 4 bytes; anything after them is ignored |
| Types.AckRoundTrip | types.go:237-273 | An Ack is exactly [0, 4, hi, lo], and it decodes back to itself whatever trailing bytes follow it |
| Types.MarshalErr | types.go:281-308 | Err encode is opcode 5, then the code as two big-endian bytes, then the message and a NUL, so its length is 5 + the message length |
| Types.UnmarshalErr | types.go:310-336 | Err decode succeeds exactly when there is opcode 5 and a NUL somewhere after byte 4. The code is not range-checked and the message is NUL-free |
| Types.ErrRoundTrip | types.go:281-336 | Decoding an encoded Err returns it, for every code and every NUL-free message |
| Types.DecodersExclusive | types.go:57-336 | No buffer is accepted by two of the five decoders |
| Net.Zeros | server.go:56 | A fresh receive buffer is 516 zero bytes |
| Net.Received | server.go:198 | A read returns min(516, the datagram's length) bytes: all of a datagram that fits, and the first 516 bytes of a longer one |
| Net.Overlay | server.go:118 | The reused buffer after a read: still 516 bytes, with the received bytes over the head of the previous contents (its byte-level layout is stated by Net.OverlayBytes) |
| Net.OverlayBytes | server.go:198 | Byte by byte, the buffer after a read holds the datagram's bytes where the datagram reached, and the old buffer's bytes beyond |
| Net.Receive | server.go:198 | Reading into the reused buffer returns the received count. Only the first count bytes are replaced; the rest keep their earlier contents |
| Net.ErrDatagramDecodes | types.go:310-336 | A datagram shaped like an Err packet decodes as Err, and not as Ack or Data, whatever the buffer held before |
| Dispatch.Fresh | server.go:56-57 | The buffer each listener read fills is 516 bytes long; its byte-level layout is stated by Dispatch.FreshBytes |
| Dispatch.FreshBytes | server.go:56-57 | The fresh buffer holds the datagram's bytes, then zeros up to 516 bytes |
| Dispatch.Respond | server.go:62-79 | Definition of the response to one datagram: the buffer is tried as a read request, then as a write request, then dropped. The lemmas below state each case |
| Dispatch.Listen | server.go:55-80 | The listener loop over the listening socket's reads. Serve returns exactly when some read fails |
| Dispatch.ListenStops | server.go:55-60 | Only a failed read on the listening socket ends Serve. What happened before it stands, and nothing after it is processed |
| Dispatch.OtherKindsDropped | server.go:78-79 | A datagram whose opcode is neither 1 nor 2 produces no action |
| Dispatch.UndecodableDropped | server.go:62-79 | A datagram that decodes as neither request produces no action |
| Dispatch.ReadRequestStartsDownload | server.go:62-66 | A decodable read request starts exactly one download for its sender, whether or not writes are allowed |
| Dispatch.WriteRequestStartsUpload | server.go:68-76 | A decodable write request starts an upload. While writes are disabled, the refusal Err packet goes to the sender first |
| Dispatch.RefusalDecodes | server.go:71-72 | The refusal is a well-formed Err packet with code 4 (illegal operation) |
| Dispatch.ReadReqAccepted | types.go:134-178 | opcode 1 + filename + NUL + "octet" + NUL decodes as that read request, whatever follows |
| Dispatch.ZeroFillTerminatesMode | server.go:56-62 | Because the buffer is zero-filled, a short read request with no NUL after "octet" still starts a download |
| Dispatch.NetasciiDropped | server.go:56-79 | A read request in mode "netascii" that is shorter than the buffer is dropped without an answer. The zero fill follows its mode's NUL, and the mode does not lower-case to "octet" |
| Download.Chunk | types.go:203 | Every block but the last carries 512 payload bytes; the last carries N mod 512 |
| Download.BlockLayout | server.go:101-103 | The k-th packet decodes to block k mod 2^16 with payload bytes [(k-1)*512, min(k*512, N)). It is a full 516-byte datagram exactly when it is not the last block |
| Download.ChunkAt | types.go:190-203 | Successive Data packets take consecutive 512-byte windows of the payload, and their block numbers go up by one mod 2^16 |
| Download.BlockNumberWraps | types.go:190 | The 65536th Data packet carries block number 0: the counter wraps |
| Download.Run | server.go:109-145 | The RETRY and NEXTPACKET loops, one pass at a time. A download ends Completed, GaveUp, PeerError or IoError and never stalls, because every read has a deadline. The number of datagrams sent never goes down, and a send count is recorded for the block it ends on |
| Download.RunExtends | server.go:109-145 | A download never takes back a datagram it has sent: the datagrams sent from any state on extend those sent before it |
| Download.Session | server.go:83-148 | A whole download from block 1 with a full retry budget. It ends Completed, GaveUp, PeerError or IoError. With a zero budget it sends nothing and gives up |
| Download.PassTimesOut | server.go:118-122 | A read timeout leads to another pass for the same block, after the packet was sent once more |
| Download.PassIgnores | server.go:128-141 | An Ack for another block, or a datagram that is neither Ack nor Err, leads to another pass that resends the same packet |
| Download.PassAdvances | server.go:129-133 | The matching Ack for a full block moves on to the next block with the whole retry budget |
| Download.PassCompletes | server.go:129-133 | The matching Ack for the short last block completes the download |
| Download.PassEnds | server.go:109-145 | A spent budget gives up without sending. A failed write sends nothing; a failed read or a peer Err packet ends the download after the one send |
| Download.SessionShaped | server.go:101-146 | On every event sequence, a download sends blocks in order and each block at most Retries times. Every block before the last is sent at least once. Completion means the last, short block went out; giving up means the whole budget was spent on one block |
| Download.CooperativeDownload | server.go:101-146 | With a client that acknowledges every block, the server sends blocks 1 to N div 512 + 1, each once and in order, and completes |
| Download.ThousandBytes | server.go:101-146 | A 1000-byte payload goes out as a 516-byte and a 492-byte datagram, then the download completes |
| Download.RetryBudget | server.go:109-145 | When nothing acknowledges block 1, the identical packet is sent exactly Retries times and the download gives up |
| Download.EndsAtOnce | server.go:110-138 | A failed write, a failed read or a peer Err packet ends the download with nothing more sent |
| Upload.Run | server.go:197-245 | Definition of the receive loop, one pass at a time. Upload.ReceiveStep states one pass, case by case |
| Upload.Session | server.go:150-249 | Definition of a whole upload: Ack 0, then the file is created, then the receive loop. Upload.SessionSendsAcks and Upload.CompleteUpload state what it does |
| Upload.ReceiveStep | server.go:197-245 | One pass of the receive loop on a datagram, branch by branch: Err, not Data, a short read, failed file write, failed Ack write, continue or complete |
| Upload.SessionSendsAcks | server.go:169-181 | An upload sends only Acks, the first of them Ack 0. It sends nothing only when that first write fails |
| Upload.DataStep | server.go:212-245 | A Data datagram is stored and acknowledged with its own block number. The loop goes on exactly when the datagram had 516 bytes |
| Upload.CompleteUpload | server.go:196-246 | For a well-formed upload the server sends Ack 0 and then one Ack per datagram with its block number. The file holds the payloads in arrival order, and the upload completes on the short datagram |
| Upload.StopsWithoutAck | server.go:205-217 | An Err packet, or a datagram that is neither Err nor Data, ends the upload with nothing stored or sent |
| Upload.ShortDataPanics | server.go:226 | The 2-byte datagram [0, 3] decodes as Data and then hits the out-of-range slice data[:n-4] |
| Server.HandleDatagram | server.go:56-79 | The listener loop's body for one datagram does what Dispatch.Respond specifies |
| Server.NextBlock | server.go:103 | dataPkt.MarshalBinary() emits the k-th Data packet of the download and leaves the cursor at the next block |
| Server.SendBlock | server.go:108-145 | The RETRY loop for one block takes the download from block k to block k+1, or ends it, as Download.Run does |
| Server.SendOnce | server.go:110-142 | One pass of the RETRY loop retries, advances or ends the download as Download.Run does |
| Server.StoreDatagram | server.go:198-245 | One pass of the upload loop continues, completes or ends the upload as Upload.Run does |
| Server.TFTPServer.constructor | server.go:13-21 | The server object holds the given configuration |
| Server.TFTPServer.Serve | server.go:36-81 | A nil connection or nil payload returns before anything is read. Otherwise a zero retry count becomes 10 and a zero timeout 4 s. Every datagram is then handled as Dispatch.Listen specifies, and Serve returns exactly when a listener read fails |
| Server.TFTPServer.HandleRead | server.go:83-148 | The datagrams sent and the outcome are those of Download.Session for the configured payload and retry budget |
| Server.TFTPServer.HandleWrite | server.go:150-249 | The datagrams sent, the file contents and the outcome are those of Upload.Session |

## Behaviour of the code worth noting

- **Stray datagrams during a download.** A stray Ack or an undecodable
  datagram sends the RETRY loop (server.go:108-143) round again. The block
  is resent and one retry is spent. `Download.PassIgnores` and
  `Download.RetryBudget` state this.
- **Write-request mode.** The mode check is case-sensitive
  (types.go:79), while read requests compare case-insensitively.
- **handleWrite and WriteAllowed.** `handleWrite` never consults
  `WriteAllowed`. After the refusal, the upload runs as usual.
- **Upload file path.** The file is created at the path the client names.
  `WriteDir` is stored but never read.
- **Serve mutates the configuration.** `Serve` rewrites the retry count and
  the timeout on the server object before it loops.
- **Datagrams shorter than 4 bytes.** A Data datagram shorter than 4 bytes
  passes the decoder, because the decoder sees the whole 516-byte buffer.
  The code then panics at `data[:n-4]`. The model gives this outcome its
  own value, `Panicked`.

## Left out

- Socket setup and teardown (`ListenAndServe`, `net.ListenPacket`,
  `net.Dial`, `Close`, `SetReadDeadline`) are left out. Sockets are given as
  sequences of read results, and writes are recorded. A failed `net.Dial`,
  which ends a session before it starts, is not modelled.
- Goroutines are not modelled. `go s.handleRead` and `go s.handleWrite`
  become `StartRead` and `StartWrite` actions, and each session is its own
  method call. Sessions share no mutable state.
- Real time is left out. An expired read deadline is a `Timeout` event, and
  the 4-second default is a constant.
- Logging is left out. `log.Fatalf` at server.go:222 is unreachable, because
  reading a `bytes.Buffer` cannot fail.
- File system calls are left out. The upload file is the `file` sequence,
  and create and write failures come from the `Disk` value.
- `strings.ToLower` is modelled as ASCII lowering. No non-ASCII byte
  sequence lower-cases to "octet", so the mode check is unaffected.
- Error messages are left out. A decoder failure is a small `DecodeError`
  value.
- cmd/tftp.go (flag parsing, reading the payload file) is not part of this
  model.
- Reads without a deadline are not modelled as blocking:
  - When `handleWrite` runs out of modelled events, the outcome is
    `Stalled`: it would wait for ever.
  - When `Serve` runs out, the result is `Listening`.
  - When `handleRead` runs out, every further read times out, because its
    reads do carry a deadline.
- Oversized datagrams are assumed to be cut to the buffer. A datagram longer
  than 516 bytes yields its first 516 bytes, as a UDP read into a 516-byte
  buffer does.
- Types.MarshalAck: its own contract gives only the length. The exact bytes
  are stated by `Types.AckRoundTrip`.

=== FILE: dispatch.dfy ===
/** The listener (Serve): each datagram on the listening socket is decoded as
    a read request, else as a write request, else dropped. */
module Dispatch {
  import opened Types
  import opened Net

  /** A client address, as addr.String() renders it. */
  type Addr = string

  /** What one read on the listening socket produces. */
  datatype ListenEvent = Packet(from: Addr, bytes: seq<byte>) | ListenFailed

  /** What the listener does in response to a datagram. */
  datatype Action =
    | StartRead(client: Addr, rrq: ReadReq)     // a download session is started
    | StartWrite(client: Addr, wrq: WriteReq)   // an upload session is started
    | SendTo(client: Addr, bytes: seq<byte>)    // a datagram goes out on the listening socket

  function Ascii(s: string): (r: seq<byte>)
    requires forall i :: 0 <= i < |s| ==> s[i] as int < 0x80
    ensures |r| == |s| && forall i :: 0 <= i < |s| ==> r[i] as int == s[i] as int
  {
    seq(|s|, i requires 0 <= i < |s| => s[i] as int as byte)
  }

  /** The Err packet a write request gets while writes are disabled. */
  const Refusal: ErrPacket := ErrPacket(ErrIllegalOp, Ascii("We don't accept write requests"))

  /** A datagram as the decoders see it: copied into a fresh zero-filled
      516-byte buffer, all of which is decoded whatever the received length. */
  function Fresh(d: seq<byte>): (r: seq<byte>)
    ensures |r| == DatagramSize
  {
    Overlay(Zeros(), d)
  }

  /** The fresh buffer holds the datagram's bytes, then zeros. */
  lemma FreshBytes(d: seq<byte>)
    ensures forall i :: 0 <= i < DatagramSize ==> Fresh(d)[i] == if i < |d| then d[i] else 0
  {
    OverlayBytes(Zeros(), d);
  }

  /** The listener's response to one datagram from `from`. */
  function Respond(writeAllowed: bool, from: Addr, d: seq<byte>): seq<Action>
  {
    var buf := Fresh(d);
    match UnmarshalReadReq(buf)
    case Ok(rrq) => [StartRead(from, rrq)]
    case Fail(_) =>
      match UnmarshalWriteReq(buf)
      case Ok(wrq) =>
        if writeAllowed then [StartWrite(from, wrq)]
        else [SendTo(from, MarshalErr(Refusal)), StartWrite(from, wrq)]
      case Fail(_) => []
  }

  /** What the listener did, and whether Serve returned. */
  datatype Served = Served(actions: seq<Action>, stopped: bool)

  /** The listener loop over the events on the listening socket. */
  function Listen(writeAllowed: bool, events: seq<ListenEvent>): (s: Served)
    ensures s.stopped <==> ListenFailed in events
  {
    if events == [] then Served([], false)
    else
      assert events == [events[0]] + events[1..];
      match events[0]
      case ListenFailed => Served([], true)
      case Packet(from, d) =>
        var r := Listen(writeAllowed, events[1..]);
        Served(Respond(writeAllowed, from, d) + r.actions, r.stopped)
  }

  /** The loop after `done` has been produced for events[..i], where event
      i is a datagram: its response, then the rest of the loop. */
  lemma ListenPacket(writeAllowed: bool, events: seq<ListenEvent>, i: nat, done: seq<Action>)
    requires i < |events| && events[i].Packet?
    requires done + Listen(writeAllowed, events[i..]).actions == Listen(writeAllowed, events).actions
    requires Listen(writeAllowed, events[i..]).stopped == Listen(writeAllowed, events).stopped
    ensures done + Respond(writeAllowed, events[i].from, events[i].bytes) + Listen(writeAllowed, events[i + 1..]).actions
         == Listen(writeAllowed, events).actions
    ensures Listen(writeAllowed, events[i + 1..]).stopped == Listen(writeAllowed, events).stopped
  {
    var e := events[i..];
    assert e[0] == events[i] && e[1..] == events[i + 1..];
    ListenHead(writeAllowed, e);
    var resp := Respond(writeAllowed, events[i].from, events[i].bytes);
    var later := Listen(writeAllowed, events[i + 1..]).actions;
    assert Listen(writeAllowed, e).actions == resp + later;
    assert done + (resp + later) == done + resp + later;
  }

  lemma ListenHead(writeAllowed: bool, e: seq<ListenEvent>)
    requires e != [] && e[0].Packet?
    ensures Listen(writeAllowed, e).actions == Respond(writeAllowed, e[0].from, e[0].bytes) + Listen(writeAllowed, e[1..]).actions
    ensures Listen(writeAllowed, e).stopped == Listen(writeAllowed, e[1..]).stopped
  {
  }

  // ---------------------------------------------------------------------

  /** Only a failed read on the listening socket ends Serve, and nothing after
      it is looked at. */
  lemma {:induction false} ListenStops(writeAllowed: bool, before: seq<ListenEvent>, after: seq<ListenEvent>)
    requires ListenFailed !in before
    ensures !Listen(writeAllowed, before).stopped
    ensures Listen(writeAllowed, before + [ListenFailed] + after)
         == Served(Listen(writeAllowed, before).actions, true)
  {
    var e := before + [ListenFailed] + after;
    if before != [] {
      assert e[0] == before[0] && e[1..] == before[1..] + [ListenFailed] + after;
      ListenStops(writeAllowed, before[1..], after);
      assert Listen(writeAllowed, e).actions
          == Respond(writeAllowed, e[0].from, e[0].bytes) + Listen(writeAllowed, e[1..]).actions;
    } else {
      assert e[0] == ListenFailed;
    }
  }

  /** A datagram whose opcode is neither RRQ nor WRQ is dropped. */
  lemma OtherKindsDropped(writeAllowed: bool, from: Addr, d: seq<byte>)
    requires |d| >= 2 && U16(d) != OpRRQ && U16(d) != OpWRQ
    ensures Respond(writeAllowed, from, d) == []
  {
    OverlayHead(Zeros(), d, 2);
    assert Fresh(d)[..2] == d[..2];
  }

  /** A datagram that decodes as neither kind of request, a malformed read
      request included, is dropped without an answer. */
  lemma UndecodableDropped(writeAllowed: bool, from: Addr, d: seq<byte>)
    requires !UnmarshalReadReq(Fresh(d)).Ok? && !UnmarshalWriteReq(Fresh(d)).Ok?
    ensures Respond(writeAllowed, from, d) == []
  {
  }

  /** A decodable read request starts a download, writes enabled or not. */
  lemma ReadRequestStartsDownload(writeAllowed: bool, from: Addr, d: seq<byte>)
    requires UnmarshalReadReq(Fresh(d)).Ok?
    ensures Respond(writeAllowed, from, d) == [StartRead(from, UnmarshalReadReq(Fresh(d)).value)]
  {
  }

  /** A decodable write request starts an upload; while writes are disabled an
      Err packet with code 4 (illegal operation) goes to the client on the
      listening socket first, and the upload is started all the same. */
  lemma WriteRequestStartsUpload(writeAllowed: bool, from: Addr, d: seq<byte>)
    requires UnmarshalWriteReq(Fresh(d)).Ok?
    ensures writeAllowed ==>
              Respond(writeAllowed, from, d) == [StartWrite(from, UnmarshalWriteReq(Fresh(d)).value)]
    ensures !writeAllowed ==>
              (Respond(writeAllowed, from, d)
               == [SendTo(from, MarshalErr(Refusal)), StartWrite(from, UnmarshalWriteReq(Fresh(d)).value)])
  {
    var buf := Fresh(d);
    assert !UnmarshalReadReq(buf).Ok?;
  }

  /** The refusal reaches the client as a well-formed Err packet. */
  lemma RefusalDecodes()
    ensures UnmarshalErr(MarshalErr(Refusal)) == Ok(Refusal) && Refusal.code == ErrIllegalOp
  {
    assert 0 !in Refusal.message;
    ErrRoundTrip(Refusal);
  }

  /** A read request in mode "octet" whose mode is followed by a NUL. */
  lemma ReadReqAccepted(f: seq<byte>, z: seq<byte>)
    requires 0 !in f
    ensures UnmarshalReadReq(BE(OpRRQ) + f + [0] + (Octet + [0] + z)) == Ok(ReadReq(f, Octet))
  {
    var p := BE(OpRRQ) + f + [0] + (Octet + [0] + z);
    SplitRequest(OpRRQ, f, Octet + [0] + z);
    var name := ReadString(p[2..]);
    assert name.rest == Octet + [0] + z;
    ReadStringField(Octet, z);
    OctetIsLower();
  }

  /** Because the buffer is zero-filled, a read request shorter than 516 bytes
      that lacks the NUL after its mode is accepted all the same. */
  lemma ZeroFillTerminatesMode(from: Addr, f: seq<byte>)
    requires 0 !in f && |f| < DatagramSize - 8
    ensures Respond(false, from, BE(OpRRQ) + f + [0] + Octet) == [StartRead(from, ReadReq(f, Octet))]
  {
    var d := BE(OpRRQ) + f + [0] + Octet;
    var z := Zeros()[|d| + 1..];
    assert Fresh(d) == d + [0] + z;
    assert d + [0] + z == BE(OpRRQ) + f + [0] + (Octet + [0] + z);
    ReadReqAccepted(f, z);
  }

  /** The transfer mode "netascii", which this server does not offer. */
  const Netascii: seq<byte> := [0x6e, 0x65, 0x74, 0x61, 0x73, 0x63, 0x69, 0x69]

  /** A read request in mode "netascii" that fits the buffer is dropped
      without an answer: the zero fill follows its mode's NUL, and the mode
      does not lower-case to "octet". */
  lemma NetasciiDropped(writeAllowed: bool, from: Addr, f: seq<byte>)
    requires 0 !in f && |f| < DatagramSize - 12
    ensures Respond(writeAllowed, from, BE(OpRRQ) + f + [0] + Netascii + [0]) == []
  {
    var d := BE(OpRRQ) + f + [0] + Netascii + [0];
    var z := Zeros()[|d|..];
    assert Fresh(d) == d + z;
    assert d + z == BE(OpRRQ) + f + [0] + (Netascii + [0] + z);
    forall i | 0 <= i < |Netascii| ensures Netascii[i] != 0 {
    }
    assert |ToLower(Netascii)| != |Octet|;
    ReadReqOtherMode(f, Netascii, z);
    SplitRequest(OpRRQ, f, Netascii + [0] + z);
  }
}

=== FILE: download.dfy ===
/** The download side of a transfer (handleRead) as a state machine over the
    session socket's events: send block k, wait for its Ack, retransmit on
    anything else, advance after a matching Ack, stop after the short block
    (section 6 of RFC 1350). */
module Download {
  import opened Types
  import opened Net

  /** Data packets needed for an N-byte payload: N div 512 full ones and a
      final short one, which is empty when 512 divides N. */
  function Blocks(p: seq<byte>): nat
  {
    |p| / BlockSize + 1
  }

  /** Payload bytes of the k-th Data packet (k counts from 1). */
  function Chunk(p: seq<byte>, k: nat): (c: seq<byte>)
    requires 1 <= k <= Blocks(p)
    ensures |c| == if k < Blocks(p) then BlockSize else |p| % BlockSize
  {
    var n := |p|;
    assert n == (n / BlockSize) * BlockSize + n % BlockSize;
    assert k < Blocks(p) ==> k * BlockSize <= (n / BlockSize) * BlockSize;
    p[(k - 1) * BlockSize .. Min(k * BlockSize, n)]
  }

  /** The k-th distinct Data packet of a download. */
  function DataBlock(p: seq<byte>, k: nat): seq<byte>
    requires 1 <= k <= Blocks(p)
  {
    DataBytes((k % 0x1_0000) as uint16, Chunk(p, k))
  }

  /** The k-th packet carries block number k mod 2^16 and payload bytes
      [(k-1)*512, min(k*512, N)); it is a full datagram exactly when k is not
      the last block, and the last one holds N mod 512 bytes. */
  lemma BlockLayout(p: seq<byte>, k: nat)
    requires 1 <= k <= Blocks(p)
    ensures UnmarshalData(DataBlock(p, k))
         == Ok(DataPacket((k % 0x1_0000) as uint16, p[(k - 1) * BlockSize .. Min(k * BlockSize, |p|)]))
    ensures |DataBlock(p, k)| == DatagramSize <==> k < Blocks(p)
    ensures k == Blocks(p) ==> |DataBlock(p, k)| == 4 + |p| % BlockSize < DatagramSize
  {
    DataRoundTrip((k % 0x1_0000) as uint16, Chunk(p, k));
  }

  /** Where the k-th chunk lies: it starts after k-1 full chunks and runs for
      at most 512 bytes; the block number of the k-th packet is one more than
      that of the previous one, mod 2^16. */
  lemma ChunkAt(p: seq<byte>, k: nat)
    requires 1 <= k <= Blocks(p)
    ensures (k - 1) * BlockSize <= |p|
    ensures Chunk(p, k) == p[(k - 1) * BlockSize .. Min((k - 1) * BlockSize + BlockSize, |p|)]
    ensures k < Blocks(p) <==> (k - 1) * BlockSize + BlockSize <= |p|
    ensures ((k - 1) % 0x1_0000 + 1) % 0x1_0000 == k % 0x1_0000
    ensures (k - 1) * BlockSize + BlockSize == k * BlockSize
  {
    var n := |p|;
    assert n == (n / BlockSize) * BlockSize + n % BlockSize;
    assert k - 1 <= n / BlockSize;
    assert (k - 1) * BlockSize <= (n / BlockSize) * BlockSize;
    if k < Blocks(p) {
      assert k * BlockSize <= (n / BlockSize) * BlockSize;
    } else {
      assert k - 1 == n / BlockSize;
    }
  }

  /** After 65535 advances the block number wraps to 0. */
  lemma BlockNumberWraps(p: seq<byte>)
    requires 0x1_0000 <= Blocks(p)
    ensures DataBlock(p, 0x1_0000)[2..4] == [0, 0]
  {
  }

  /** Where a download is: block k is the current one, `left` passes of the
      RETRY loop remain for it, `inbound` holds the reads still to happen, `buf`
      is the reused receive buffer, `sent` the datagrams written so far, and
      `counts` how often each earlier block was sent. */
  datatype State = State(k: nat, left: nat, inbound: seq<Event>, buf: seq<byte>,
                         sent: seq<seq<byte>>, counts: seq<nat>)

  /** What a download did: the datagrams it wrote, how it ended, and how many
      times it sent each block it reached. */
  datatype Transcript = Transcript(sent: seq<seq<byte>>, outcome: Outcome, counts: seq<nat>)

  predicate Fits(p: seq<byte>, retries: nat, st: State)
  {
    1 <= st.k <= Blocks(p) && st.left <= retries &&
    |st.counts| == st.k - 1 && |st.buf| == DatagramSize
  }

  /** The result of the next read: once the given events run out, every read
      times out, since each one waits under a deadline. */
  function NextEvent(inbound: seq<Event>): Event
  {
    if inbound == [] then Timeout else inbound[0]
  }

  function Later(inbound: seq<Event>): seq<Event>
  {
    if inbound == [] then [] else inbound[1..]
  }

  /** One pass of the RETRY loop after another, from state `st`. */
  function Run(p: seq<byte>, retries: nat, failingWrite: Option<nat>, st: State): (r: Transcript)
    requires Fits(p, retries, st)
    ensures r.outcome in {Completed, GaveUp, PeerError, IoError}
    ensures |st.sent| <= |r.sent| && |st.counts| < |r.counts|
    decreases Blocks(p) - st.k, st.left
  {
    if st.left == 0 then Transcript(st.sent, GaveUp, st.counts + [retries])
    else if failingWrite == Some(|st.sent|) then
      Transcript(st.sent, IoError, st.counts + [retries - st.left])
    else
      var pkt := DataBlock(p, st.k);
      var sent := st.sent + [pkt];
      var tries := retries - st.left + 1;
      match NextEvent(st.inbound)
      case Timeout =>
        Run(p, retries, failingWrite, st.(left := st.left - 1, inbound := Later(st.inbound), sent := sent))
      case ReadFailed =>
        Transcript(sent, IoError, st.counts + [tries])
      case Datagram(d) =>
        var buf := Overlay(st.buf, d);
        var retry := State(st.k, st.left - 1, Later(st.inbound), buf, sent, st.counts);
        match UnmarshalAck(buf)
        case Ok(ack) =>
          if ack.block as int != st.k % 0x1_0000 then Run(p, retries, failingWrite, retry)
          else if |pkt| == DatagramSize then
            BlockLayout(p, st.k);
            Run(p, retries, failingWrite,
                State(st.k + 1, retries, Later(st.inbound), buf, sent, st.counts + [tries]))
          else Transcript(sent, Completed, st.counts + [tries])
        case Fail(_) =>
          if UnmarshalErr(buf).Ok? then Transcript(sent, PeerError, st.counts + [tries])
          else Run(p, retries, failingWrite, retry)
  }

  /** A download never takes back a datagram it has sent: the datagrams
      sent from state `st` on extend those sent before it. */
  lemma {:induction false} RunExtends(p: seq<byte>, retries: nat, failingWrite: Option<nat>, st: State)
    requires Fits(p, retries, st)
    ensures st.sent <= Run(p, retries, failingWrite, st).sent
    decreases Blocks(p) - st.k, st.left
  {
    if st.left > 0 && failingWrite != Some(|st.sent|) {
      var sent := st.sent + [DataBlock(p, st.k)];
      match NextEvent(st.inbound)
      case Timeout =>
        RunExtends(p, retries, failingWrite, st.(left := st.left - 1, inbound := Later(st.inbound), sent := sent));
      case ReadFailed =>
      case Datagram(d) =>
        var buf := Overlay(st.buf, d);
        RunExtends(p, retries, failingWrite, State(st.k, st.left - 1, Later(st.inbound), buf, sent, st.counts));
        if st.k < Blocks(p) {
          RunExtends(p, retries, failingWrite, State(st.k + 1, retries, Later(st.inbound), buf, sent, st.counts + [retries - st.left + 1]));
        }
    }
  }

  /** A whole download of payload p with the given retry budget. */
  function Session(p: seq<byte>, retries: nat, conn: Conn): (r: Transcript)
    ensures r.outcome in {Completed, GaveUp, PeerError, IoError} && |r.counts| >= 1
    ensures retries == 0 ==> r == Transcript([], GaveUp, [0])
  {
    Run(p, retries, conn.failingWrite, State(1, retries, conn.inbound, Zeros(), [], []))
  }

  /** A pass whose write succeeds and whose read times out moves on to the
      next pass for the same block. */
  lemma PassTimesOut(p: seq<byte>, retries: nat, failingWrite: Option<nat>, st: State)
    requires Fits(p, retries, st) && st.left > 0 && failingWrite != Some(|st.sent|)
    requires NextEvent(st.inbound) == Timeout
    ensures Run(p, retries, failingWrite, st)
         == Run(p, retries, failingWrite,
                st.(left := st.left - 1, inbound := Later(st.inbound), sent := st.sent + [DataBlock(p, st.k)]))
  {
  }

  /** A pass that reads a datagram which is neither the matching Ack nor an
      Err packet moves on to the next pass for the same block. */
  lemma PassIgnores(p: seq<byte>, retries: nat, failingWrite: Option<nat>, st: State, d: seq<byte>)
    requires Fits(p, retries, st) && st.left > 0 && failingWrite != Some(|st.sent|)
    requires NextEvent(st.inbound) == Datagram(d)
    requires var ack := UnmarshalAck(Overlay(st.buf, d));
             if ack.Ok? then ack.value.block as int != st.k % 0x1_0000 else !UnmarshalErr(Overlay(st.buf, d)).Ok?
    ensures Run(p, retries, failingWrite, st)
         == Run(p, retries, failingWrite,
                State(st.k, st.left - 1, Later(st.inbound), Overlay(st.buf, d), st.sent + [DataBlock(p, st.k)], st.counts))
  {
  }

  /** The matching Ack for a full block moves on to the next block with the
      whole retry budget. */
  lemma PassAdvances(p: seq<byte>, retries: nat, failingWrite: Option<nat>, st: State, d: seq<byte>)
    requires Fits(p, retries, st) && st.left > 0 && failingWrite != Some(|st.sent|)
    requires NextEvent(st.inbound) == Datagram(d)
    requires UnmarshalAck(Overlay(st.buf, d)).Ok?
    requires UnmarshalAck(Overlay(st.buf, d)).value.block as int == st.k % 0x1_0000
    requires |DataBlock(p, st.k)| == DatagramSize
    ensures st.k < Blocks(p)
    ensures Run(p, retries, failingWrite, st)
         == Run(p, retries, failingWrite,
                State(st.k + 1, retries, Later(st.inbound), Overlay(st.buf, d), st.sent + [DataBlock(p, st.k)],
                      st.counts + [retries - st.left + 1]))
  {
    BlockLayout(p, st.k);
  }

  /** The matching Ack for the short final block completes the download. */
  lemma PassCompletes(p: seq<byte>, retries: nat, failingWrite: Option<nat>, st: State, d: seq<byte>)
    requires Fits(p, retries, st) && st.left > 0 && failingWrite != Some(|st.sent|)
    requires NextEvent(st.inbound) == Datagram(d)
    requires UnmarshalAck(Overlay(st.buf, d)).Ok?
    requires UnmarshalAck(Overlay(st.buf, d)).value.block as int == st.k % 0x1_0000
    requires |DataBlock(p, st.k)| != DatagramSize
    ensures Run(p, retries, failingWrite, st).sent == st.sent + [DataBlock(p, st.k)]
    ensures Run(p, retries, failingWrite, st).outcome == Completed
  {
  }

  /** The passes that end the download at once: a failed write, a failed
      read, an Err packet, or no budget left. */
  lemma PassEnds(p: seq<byte>, retries: nat, failingWrite: Option<nat>, st: State)
    requires Fits(p, retries, st)
    ensures var t := Run(p, retries, failingWrite, st);
            var sent := st.sent + [DataBlock(p, st.k)];
            && (st.left == 0 ==> t.sent == st.sent && t.outcome == GaveUp)
            && (st.left > 0 && failingWrite == Some(|st.sent|) ==> t.sent == st.sent && t.outcome == IoError)
            && (st.left > 0 && failingWrite != Some(|st.sent|) && NextEvent(st.inbound) == ReadFailed ==>
                  t.sent == sent && t.outcome == IoError)
            && (st.left > 0 && failingWrite != Some(|st.sent|) && NextEvent(st.inbound).Datagram? &&
                !UnmarshalAck(Overlay(st.buf, NextEvent(st.inbound).bytes)).Ok? &&
                UnmarshalErr(Overlay(st.buf, NextEvent(st.inbound).bytes)).Ok? ==>
                  t.sent == sent && t.outcome == PeerError)
  {
  }

  // ---------------------------------------------------------------------
  // The shape of every download

  function Repeat(x: seq<byte>, n: nat): (r: seq<seq<byte>>)
    ensures |r| == n && forall i :: 0 <= i < n ==> r[i] == x
  {
    seq(n, _ => x)
  }

  /** Block 1 sent counts[0] times, then block 2 counts[1] times, and so on. */
  function Transmissions(p: seq<byte>, counts: seq<nat>): seq<seq<byte>>
    requires |counts| <= Blocks(p)
  {
    if counts == [] then []
    else Transmissions(p, counts[..|counts| - 1]) + Repeat(DataBlock(p, |counts|), counts[|counts| - 1])
  }

  lemma TransmissionsSnoc(p: seq<byte>, counts: seq<nat>, c: nat)
    requires |counts| < Blocks(p)
    ensures Transmissions(p, counts + [c]) == Transmissions(p, counts) + Repeat(DataBlock(p, |counts| + 1), c)
  {
    assert (counts + [c])[..|counts|] == counts;
  }

  lemma RepeatSnoc(x: seq<byte>, n: nat)
    ensures Repeat(x, n) + [x] == Repeat(x, n + 1)
  {
  }

  /** What every download looks like: blocks go out in order, each one at most
      `retries` times and every block before the last at least once; a
      completed download reached the last, short block and ends with it; a
      download that gave up spent the whole budget on its last block. */
  predicate Shaped(p: seq<byte>, retries: nat, t: Transcript)
  {
    1 <= |t.counts| <= Blocks(p) &&
    t.sent == Transmissions(p, t.counts) &&
    (forall i :: 0 <= i < |t.counts| ==> t.counts[i] <= retries) &&
    (forall i :: 0 <= i < |t.counts| - 1 ==> 1 <= t.counts[i]) &&
    (t.outcome == Completed ==>
       |t.counts| == Blocks(p) && |t.sent| > 0 && t.sent[|t.sent| - 1] == DataBlock(p, Blocks(p))) &&
    (t.outcome == GaveUp ==> t.counts[|t.counts| - 1] == retries)
  }

  /** A download that stops on block k after sending it c times has that shape. */
  lemma ShapedStop(p: seq<byte>, retries: nat, counts: seq<nat>, k: nat, c: nat,
                   sent: seq<seq<byte>>, outcome: Outcome)
    requires 1 <= k <= Blocks(p) && |counts| == k - 1 && c <= retries
    requires forall i :: 0 <= i < |counts| ==> 1 <= counts[i] <= retries
    requires sent == Transmissions(p, counts) + Repeat(DataBlock(p, k), c)
    requires outcome == Completed ==> k == Blocks(p) && c >= 1
    requires outcome == GaveUp ==> c == retries
    ensures Shaped(p, retries, Transcript(sent, outcome, counts + [c]))
  {
    TransmissionsSnoc(p, counts, c);
    var all := counts + [c];
    forall i | 0 <= i < |all|
      ensures all[i] <= retries && (i < |all| - 1 ==> 1 <= all[i])
    {
      if i < |counts| {
        assert all[i] == counts[i];
      }
    }
    if outcome == Completed {
      assert sent[|sent| - 1] == Repeat(DataBlock(p, k), c)[c - 1];
    }
  }

  lemma {:induction false} RunShaped(p: seq<byte>, retries: nat, failingWrite: Option<nat>, st: State)
    requires Fits(p, retries, st)
    requires st.sent == Transmissions(p, st.counts) + Repeat(DataBlock(p, st.k), retries - st.left)
    requires forall i :: 0 <= i < |st.counts| ==> 1 <= st.counts[i] <= retries
    ensures Shaped(p, retries, Run(p, retries, failingWrite, st))
    decreases Blocks(p) - st.k, st.left, 2
  {
    var t := Run(p, retries, failingWrite, st);
    var pkt := DataBlock(p, st.k);
    if st.left == 0 {
      ShapedStop(p, retries, st.counts, st.k, retries, st.sent, GaveUp);
    } else if failingWrite == Some(|st.sent|) {
      ShapedStop(p, retries, st.counts, st.k, retries - st.left, st.sent, IoError);
    } else {
      var sent := st.sent + [pkt];
      var tries := retries - st.left + 1;
      RepeatSnoc(pkt, retries - st.left);
      assert sent == Transmissions(p, st.counts) + Repeat(pkt, tries);
      match NextEvent(st.inbound)
      case Timeout =>
        var next := st.(left := st.left - 1, inbound := Later(st.inbound), sent := sent);
        assert t == Run(p, retries, failingWrite, next);
        RunShaped(p, retries, failingWrite, next);
      case ReadFailed =>
        assert t == Transcript(sent, IoError, st.counts + [tries]);
        ShapedStop(p, retries, st.counts, st.k, tries, sent, IoError);
      case Datagram(d) =>
        DatagramShaped(p, retries, failingWrite, st, d);
    }
  }

  /** RunShaped, for a pass whose read returned datagram d. */
  lemma {:induction false} DatagramShaped(p: seq<byte>, retries: nat, failingWrite: Option<nat>, st: State,
                                          d: seq<byte>)
    requires Fits(p, retries, st) && st.left > 0 && failingWrite != Some(|st.sent|)
    requires NextEvent(st.inbound) == Datagram(d)
    requires st.sent + [DataBlock(p, st.k)]
          == Transmissions(p, st.counts) + Repeat(DataBlock(p, st.k), retries - st.left + 1)
    requires forall i :: 0 <= i < |st.counts| ==> 1 <= st.counts[i] <= retries
    ensures Shaped(p, retries, Run(p, retries, failingWrite, st))
    decreases Blocks(p) - st.k, st.left, 1
  {
    var t := Run(p, retries, failingWrite, st);
    var sent := st.sent + [DataBlock(p, st.k)];
    var tries := retries - st.left + 1;
    var buf := Overlay(st.buf, d);
    var ack := UnmarshalAck(buf);
    if ack.Ok? && ack.value.block as int == st.k % 0x1_0000 {
      AckedShaped(p, retries, failingWrite, st, d);
    } else if !ack.Ok? && UnmarshalErr(buf).Ok? {
      PassEnds(p, retries, failingWrite, st);
      assert t == Transcript(sent, PeerError, st.counts + [tries]);
      ShapedStop(p, retries, st.counts, st.k, tries, sent, PeerError);
    } else {
      PassIgnores(p, retries, failingWrite, st, d);
      RunShaped(p, retries, failingWrite, State(st.k, st.left - 1, Later(st.inbound), buf, sent, st.counts));
    }
  }

  /** DatagramShaped, for the matching Ack. */
  lemma {:induction false} AckedShaped(p: seq<byte>, retries: nat, failingWrite: Option<nat>, st: State,
                                       d: seq<byte>)
    requires Fits(p, retries, st) && st.left > 0 && failingWrite != Some(|st.sent|)
    requires NextEvent(st.inbound) == Datagram(d)
    requires UnmarshalAck(Overlay(st.buf, d)).Ok?
    requires UnmarshalAck(Overlay(st.buf, d)).value.block as int == st.k % 0x1_0000
    requires st.sent + [DataBlock(p, st.k)]
          == Transmissions(p, st.counts) + Repeat(DataBlock(p, st.k), retries - st.left + 1)
    requires forall i :: 0 <= i < |st.counts| ==> 1 <= st.counts[i] <= retries
    ensures Shaped(p, retries, Run(p, retries, failingWrite, st))
    decreases Blocks(p) - st.k, st.left, 0
  {
    var t := Run(p, retries, failingWrite, st);
    var pkt := DataBlock(p, st.k);
    var sent := st.sent + [pkt];
    var tries := retries - st.left + 1;
    BlockLayout(p, st.k);
    if |pkt| == DatagramSize {
      var next := State(st.k + 1, retries, Later(st.inbound), Overlay(st.buf, d), sent, st.counts + [tries]);
      PassAdvances(p, retries, failingWrite, st, d);
      TransmissionsSnoc(p, st.counts, tries);
      assert Transmissions(p, next.counts) + Repeat(DataBlock(p, next.k), 0) == sent;
      RunShaped(p, retries, failingWrite, next);
    } else {
      assert t == Transcript(sent, Completed, st.counts + [tries]);
      ShapedStop(p, retries, st.counts, st.k, tries, sent, Completed);
    }
  }

  /** Every download, on every sequence of events, has that shape. */
  lemma SessionShaped(p: seq<byte>, retries: nat, conn: Conn)
    ensures Shaped(p, retries, Session(p, retries, conn))
  {
    RunShaped(p, retries, conn.failingWrite, State(1, retries, conn.inbound, Zeros(), [], []));
  }

  // ---------------------------------------------------------------------
  // A cooperative client

  /** The Ack a client sends for the k-th block. */
  function AckFor(k: nat): Event
  {
    Datagram(MarshalAck(Ack((k % 0x1_0000) as uint16)))
  }

  /** Acks for blocks k through last, in order. */
  function AcksFrom(k: nat, last: nat): seq<Event>
    requires k <= last + 1
  {
    seq(last + 1 - k, i requires 0 <= i => AckFor(k + i))
  }

  /** Blocks 1 through n, each sent once. */
  function InOrder(p: seq<byte>, n: nat): seq<seq<byte>>
    requires n <= Blocks(p)
  {
    seq(n, i requires 0 <= i < n => DataBlock(p, i + 1))
  }

  function Ones(n: nat): seq<nat>
  {
    seq(n, _ => 1)
  }

  lemma {:induction false} RunCooperative(p: seq<byte>, retries: nat, st: State)
    requires retries >= 1 && Fits(p, retries, st) && st.left == retries
    requires st.inbound == AcksFrom(st.k, Blocks(p))
    requires st.sent == InOrder(p, st.k - 1) && st.counts == Ones(st.k - 1)
    ensures Run(p, retries, None, st) == Transcript(InOrder(p, Blocks(p)), Completed, Ones(Blocks(p)))
    decreases Blocks(p) - st.k
  {
    var pkt := DataBlock(p, st.k);
    var sent := st.sent + [pkt];
    assert sent == InOrder(p, st.k);
    assert st.counts + [1] == Ones(st.k);
    assert NextEvent(st.inbound) == AckFor(st.k);
    var d := MarshalAck(Ack((st.k % 0x1_0000) as uint16));
    var buf := Overlay(st.buf, d);
    OverlayHead(st.buf, d, 4);
    assert buf == d + buf[4..];
    AckRoundTrip(Ack((st.k % 0x1_0000) as uint16), buf[4..]);
    BlockLayout(p, st.k);
    if st.k < Blocks(p) {
      assert Later(st.inbound) == AcksFrom(st.k + 1, Blocks(p));
      RunCooperative(p, retries, State(st.k + 1, retries, Later(st.inbound), buf, sent, st.counts + [1]));
    }
  }

  /** A client that acknowledges every block at once receives blocks 1 through
      N div 512 + 1, each exactly once and in order, and the download
      completes; nothing about block-number wrap-around stops it early. */
  lemma CooperativeDownload(p: seq<byte>, retries: nat)
    requires retries >= 1
    ensures Session(p, retries, Conn(AcksFrom(1, Blocks(p)), None))
         == Transcript(InOrder(p, Blocks(p)), Completed, Ones(Blocks(p)))
  {
    RunCooperative(p, retries, State(1, retries, AcksFrom(1, Blocks(p)), Zeros(), [], []));
  }

  /** Serving 1000 bytes: a full block 1 and a 488-byte block 2, then done. */
  lemma ThousandBytes(p: seq<byte>, retries: nat)
    requires |p| == 1000 && retries >= 1
    ensures Session(p, retries, Conn([AckFor(1), AckFor(2)], None))
         == Transcript([DataBlock(p, 1), DataBlock(p, 2)], Completed, [1, 1])
    ensures |DataBlock(p, 1)| == 4 + 512 && |DataBlock(p, 2)| == 4 + 488
  {
    assert Blocks(p) == 2;
    CooperativeDownload(p, retries);
    assert AcksFrom(1, 2) == [AckFor(1), AckFor(2)];
    assert InOrder(p, 2) == [DataBlock(p, 1), DataBlock(p, 2)];
    assert Ones(2) == [1, 1];
    BlockLayout(p, 2);
  }

  // ---------------------------------------------------------------------
  // Retransmission and the retry budget

  /** A read that neither acknowledges block k nor carries an Err packet: a
      timeout, a stray Ack, or a datagram of another kind. */
  predicate Unanswered(e: Event, k: nat)
  {
    e.Timeout? ||
    (e.Datagram? && |e.bytes| >= 4 && U16(e.bytes) != OpErr &&
     e.bytes[..4] != MarshalAck(Ack((k % 0x1_0000) as uint16)))
  }

  lemma {:induction false} RunUnanswered(p: seq<byte>, retries: nat, st: State)
    requires Fits(p, retries, st)
    requires forall i :: 0 <= i < |st.inbound| ==> Unanswered(st.inbound[i], st.k)
    ensures Run(p, retries, None, st)
         == Transcript(st.sent + Repeat(DataBlock(p, st.k), st.left), GaveUp, st.counts + [retries])
    decreases st.left
  {
    if st.left > 0 {
      var pkt := DataBlock(p, st.k);
      var sent := st.sent + [pkt];
      RepeatSnoc(pkt, st.left - 1);
      assert sent + Repeat(pkt, st.left - 1) == st.sent + Repeat(pkt, st.left) by {
        assert [pkt] + Repeat(pkt, st.left - 1) == Repeat(pkt, st.left);
      }
      var e := NextEvent(st.inbound);
      assert Unanswered(e, st.k);
      assert forall i :: 0 <= i < |Later(st.inbound)| ==> Later(st.inbound)[i] == st.inbound[i + 1];
      if e.Datagram? {
        var d := e.bytes;
        var buf := Overlay(st.buf, d);
        OverlayHead(st.buf, d, 4);
        assert buf[..2] == d[..2] && buf[..4] == d[..4];
        assert U16(buf) == U16(d);
        assert !UnmarshalErr(buf).Ok?;
        assert UnmarshalAck(buf).Ok? ==> UnmarshalAck(buf).value.block as int != st.k % 0x1_0000;
        RunUnanswered(p, retries, State(st.k, st.left - 1, Later(st.inbound), buf, sent, st.counts));
      } else {
        RunUnanswered(p, retries, st.(left := st.left - 1, inbound := Later(st.inbound), sent := sent));
      }
    }
  }

  /** When nothing acknowledges block 1 (every Ack dropped, stray Acks, junk),
      the identical first packet goes out exactly `retries` times and the
      download gives up, sending nothing more. */
  lemma RetryBudget(p: seq<byte>, retries: nat, inbound: seq<Event>)
    requires forall i :: 0 <= i < |inbound| ==> Unanswered(inbound[i], 1)
    ensures Session(p, retries, Conn(inbound, None)) == Transcript(Repeat(DataBlock(p, 1), retries), GaveUp, [retries])
  {
    RunUnanswered(p, retries, State(1, retries, inbound, Zeros(), [], []));
  }

  // ---------------------------------------------------------------------
  // Terminal events

  /** A failed write, a failed read, or an Err packet from the peer ends the
      download on the spot: nothing further is sent. */
  lemma EndsAtOnce(p: seq<byte>, retries: nat, failingWrite: Option<nat>, st: State)
    requires Fits(p, retries, st) && st.left > 0
    ensures failingWrite == Some(|st.sent|) ==>
              Run(p, retries, failingWrite, st).sent == st.sent &&
              Run(p, retries, failingWrite, st).outcome == IoError
    ensures failingWrite != Some(|st.sent|) && NextEvent(st.inbound) == ReadFailed ==>
              Run(p, retries, failingWrite, st).sent == st.sent + [DataBlock(p, st.k)] &&
              Run(p, retries, failingWrite, st).outcome == IoError
    ensures failingWrite != Some(|st.sent|) && NextEvent(st.inbound).Datagram? &&
            IsErrDatagram(NextEvent(st.inbound).bytes) ==>
              Run(p, retries, failingWrite, st).sent == st.sent + [DataBlock(p, st.k)] &&
              Run(p, retries, failingWrite, st).outcome == PeerError
  {
    var e := NextEvent(st.inbound);
    if failingWrite != Some(|st.sent|) && e.Datagram? && IsErrDatagram(e.bytes) {
      ErrDatagramDecodes(st.buf, e.bytes);
    }
  }
}

=== FILE: net.dfy ===
/** The sockets a transfer session talks through, as data: what each read
    returns, in order, and which write fails. */
module Net {
  import opened Types

  /** What one read on a session socket produces. */
  datatype Event =
    | Timeout                       // the read deadline passed
    | Datagram(bytes: seq<byte>)    // a datagram arrived
    | ReadFailed                    // any other read error

  /** A session's connected socket: the results of its reads, in order, and
      the index (counting from 0) of the first write that fails, if any. */
  datatype Conn = Conn(inbound: seq<Event>, failingWrite: Option<nat>)

  /** How a session ends. */
  datatype Outcome =
    | Completed   // the short final block went through
    | GaveUp      // the retry budget for one block ran out
    | PeerError   // the peer sent an Err packet
    | IoError     // a socket or file operation failed
    | BadPacket   // a datagram that is neither Err nor Data
    | Stalled     // waiting, without deadline, for a datagram that never comes
    | Panicked    // the Go runtime aborts on an out-of-range slice

  /** A fresh receive buffer: make([]byte, DatagramSize). */
  function Zeros(): (z: seq<byte>)
    ensures |z| == DatagramSize && forall i :: 0 <= i < |z| ==> z[i] == 0
  {
    seq(DatagramSize, _ => 0)
  }

  /** How many bytes a read into the buffer returns: a datagram longer than
      the buffer is cut to its size. */
  function Received(d: seq<byte>): (n: nat)
    ensures n <= DatagramSize && n <= |d|
    ensures n < DatagramSize <==> |d| < DatagramSize
    ensures |d| <= DatagramSize ==> n == |d|
    ensures |d| >= DatagramSize ==> n == DatagramSize
  {
    Min(|d|, DatagramSize)
  }

  /** The buffer after a read of `d`: its first n bytes replaced, the rest
      left as the previous reads wrote them. */
  function Overlay(buf: seq<byte>, d: seq<byte>): (r: seq<byte>)
    requires |buf| == DatagramSize
    ensures |r| == DatagramSize
  {
    d[..Received(d)] + buf[Received(d)..]
  }

  /** Byte by byte: the datagram's bytes where it reached, the old buffer's
      beyond. */
  lemma OverlayBytes(buf: seq<byte>, d: seq<byte>)
    requires |buf| == DatagramSize
    ensures forall i :: 0 <= i < DatagramSize ==> Overlay(buf, d)[i] == if i < |d| then d[i] else buf[i]
  {
  }

  lemma OverlayHead(buf: seq<byte>, d: seq<byte>, m: nat)
    requires |buf| == DatagramSize && m <= |d| && m <= DatagramSize
    ensures |Overlay(buf, d)| == DatagramSize
    ensures Overlay(buf, d)[..m] == d[..m]
  {
  }

  /** A datagram that decodes as an Err packet whatever the buffer held before. */
  predicate IsErrDatagram(d: seq<byte>)
  {
    4 <= |d| <= DatagramSize && U16(d) == OpErr && 0 in d[4..]
  }

  lemma ErrDatagramDecodes(buf: seq<byte>, d: seq<byte>)
    requires |buf| == DatagramSize && IsErrDatagram(d)
    ensures UnmarshalErr(Overlay(buf, d)).Ok? && !UnmarshalAck(Overlay(buf, d)).Ok?
    ensures !UnmarshalData(Overlay(buf, d)).Ok?
  {
    var b := Overlay(buf, d);
    OverlayHead(buf, d, |d|);
    assert b[..2] == d[..2];
    var j :| 0 <= j < |d[4..]| && d[4..][j] == 0;
    assert b[4..][j] == 0;
  }

  /** conn.Read(buf): copy the datagram into the reused buffer. */
  method Receive(buf: array<byte>, d: seq<byte>) returns (n: nat)
    requires buf.Length == DatagramSize
    modifies buf
    ensures n == Received(d)
    ensures buf[..] == Overlay(old(buf[..]), d)
  {
    n := Received(d);
    forall i | 0 <= i < n {
      buf[i] := d[i];
    }
  }
}

=== FILE: server.dfy ===
/** The server object: its configuration, the listener loop (Serve) and the
    two kinds of transfer session (handleRead, handleWrite). */
module Server {
  import opened Types
  import opened Net
  import Download
  import Upload
  import opened Dispatch

  const DefaultRetries: uint8 := 10
  /** Four seconds, as a time.Duration in nanoseconds. */
  const DefaultTimeout: int := 4_000_000_000

  /** Why Serve returned, or that it is still listening once the modelled
      events are used up. */
  datatype ServeResult = NilConnection | MissingPayload | ListenerFailed | Listening

  /** The body of the listener loop for one datagram: read it into a fresh
      buffer, try it as a read request, then as a write request (refusing it
      first while writes are disabled), and otherwise drop it. */
  method HandleDatagram(writeAllowed: bool, from: Addr, d: seq<byte>) returns (step: seq<Action>)
    ensures step == Respond(writeAllowed, from, d)
  {
    var buf := new byte[DatagramSize](_ => 0);
    assert buf[..] == Zeros();
    var got := Receive(buf, d);
    var b := buf[..];
    assert b == Fresh(d);
    step := [];
    var rrq := UnmarshalReadReq(b);
    if rrq.Ok? {
      step := [StartRead(from, rrq.value)];
    } else {
      var wrq := UnmarshalWriteReq(b);
      if wrq.Ok? {
        if !writeAllowed {
          step := [SendTo(from, MarshalErr(Refusal))];
        }
        step := step + [StartWrite(from, wrq.value)];
      }
      // anything else is logged and dropped
    }
  }

  /** dataPkt.MarshalBinary() for the k-th block of a download: it emits the
      k-th Data packet and leaves the object at the start of the next block. */
  method NextBlock(dataPkt: Data, ghost k: nat) returns (data: seq<byte>)
    requires dataPkt.Valid() && 1 <= k <= Download.Blocks(dataPkt.payload)
    requires dataPkt.offset == (k - 1) * BlockSize && dataPkt.block as int == (k - 1) % 0x1_0000
    modifies dataPkt
    ensures dataPkt.Valid() && dataPkt.block as int == k % 0x1_0000 && old(dataPkt.offset) <= dataPkt.offset
    ensures data == Download.DataBlock(dataPkt.payload, k)
    ensures k < Download.Blocks(dataPkt.payload) ==> dataPkt.offset == k * BlockSize
  {
    Download.ChunkAt(dataPkt.payload, k);
    data := dataPkt.MarshalBinary();
  }

  /** A download's RETRY loop for the k-th Data packet: up to `retries`
      passes, until the matching Ack arrives or the download ends. `tries` is
      the number of times the packet went out. */
  method SendBlock(ghost p: seq<byte>, retries: nat, failingWrite: Option<nat>,
                   ghost k: nat, ghost counts: seq<nat>, ghost target: Download.Transcript,
                   data: seq<byte>, block: uint16, buf: array<byte>, events: seq<Event>, written: seq<seq<byte>>)
    returns (acked: bool, outcome: Outcome, inbound: seq<Event>, sent: seq<seq<byte>>, ghost tries: nat)
    requires Download.Fits(p, retries, Download.State(k, retries, events, buf[..], written, counts))
    requires data == Download.DataBlock(p, k) && block as int == k % 0x1_0000
    requires Download.Run(p, retries, failingWrite, Download.State(k, retries, events, buf[..], written, counts)) == target
    modifies buf
    ensures acked && |data| == DatagramSize ==>
              k < Download.Blocks(p) &&
              Download.Run(p, retries, failingWrite,
                           Download.State(k + 1, retries, inbound, buf[..], sent, counts + [tries])) == target
    ensures acked && |data| != DatagramSize ==> target.sent == sent && target.outcome == Completed
    ensures !acked ==> target.sent == sent && target.outcome == outcome
  {
    inbound, sent := events, written;
    var i: nat := retries;
    while i > 0
      invariant i <= retries
      invariant Download.Run(p, retries, failingWrite, Download.State(k, i, inbound, buf[..], sent, counts)) == target
    {
      var pass;
      pass, inbound, sent := SendOnce(p, retries, failingWrite, Download.State(k, i, inbound, buf[..], sent, counts),
                                      data, block, buf, inbound, sent);
      match pass {
        case Retry =>
          i := i - 1;
        case Acked =>
          return true, Completed, inbound, sent, retries - i + 1;
        case Ended(why) =>
          return false, why, inbound, sent, 0;
      }
    }
    // retries exhausted
    Download.PassEnds(p, retries, failingWrite, Download.State(k, i, inbound, buf[..], sent, counts));
    return false, GaveUp, inbound, sent, retries;
  }

  /** How one pass of the RETRY loop ends. */
  datatype Pass = Retry | Acked | Ended(outcome: Outcome)

  /** One pass of the RETRY loop: write the Data packet, then read with a
      deadline; a timeout, a stale Ack or garbage means another pass. */
  method SendOnce(ghost p: seq<byte>, retries: nat, failingWrite: Option<nat>, ghost st: Download.State,
                  data: seq<byte>, block: uint16, buf: array<byte>, inbound: seq<Event>, sent: seq<seq<byte>>)
    returns (pass: Pass, inbound': seq<Event>, sent': seq<seq<byte>>)
    requires Download.Fits(p, retries, st) && st.left > 0
    requires st.inbound == inbound && st.sent == sent && st.buf == buf[..]
    requires data == Download.DataBlock(p, st.k) && block as int == st.k % 0x1_0000
    modifies buf
    ensures var t := Download.Run(p, retries, failingWrite, st);
            && (pass == Retry ==>
                  t == Download.Run(p, retries, failingWrite,
                                    Download.State(st.k, st.left - 1, inbound', buf[..], sent', st.counts)))
            && (pass == Acked && |data| == DatagramSize ==>
                  st.k < Download.Blocks(p) &&
                  t == Download.Run(p, retries, failingWrite,
                                    Download.State(st.k + 1, retries, inbound', buf[..], sent',
                                                   st.counts + [retries - st.left + 1])))
            && (pass == Acked && |data| != DatagramSize ==> t.sent == sent' && t.outcome == Completed)
            && (pass.Ended? ==> t.sent == sent' && t.outcome == pass.outcome)
  {
    Download.PassEnds(p, retries, failingWrite, st);
    if failingWrite == Some(|sent|) {
      // the write fails
      return Ended(IoError), inbound, sent;
    }
    sent' := sent + [data];
    var ev := Download.NextEvent(inbound);
    inbound' := Download.Later(inbound);
    match ev {
      case Timeout =>
        Download.PassTimesOut(p, retries, failingWrite, st);
        return Retry, inbound', sent';
      case ReadFailed =>
        return Ended(IoError), inbound', sent';
      case Datagram(d) =>
        var got := Receive(buf, d);
        var b := buf[..];
        var ack := UnmarshalAck(b);
        if ack.Ok? {
          if ack.value.block == block {
            if |data| == DatagramSize {
              Download.PassAdvances(p, retries, failingWrite, st, d);
            } else {
              Download.PassCompletes(p, retries, failingWrite, st, d);
            }
            return Acked, inbound', sent';
          }
        } else if UnmarshalErr(b).Ok? {
          return Ended(PeerError), inbound', sent';
        }
        Download.PassIgnores(p, retries, failingWrite, st, d);
        return Retry, inbound', sent';
    }
  }

  /** One pass of an upload's loop on a datagram: read it into the reused
      buffer, stop on an Err packet or anything that is not Data, store the
      received payload and acknowledge its block. `stop` is the outcome when
      the session ends here on an error. */
  method StoreDatagram(conn: Conn, disk: Upload.Disk, ghost later: seq<Event>, d: seq<byte>, buf: array<byte>,
                       file: seq<byte>, stored: nat, sent: seq<seq<byte>>)
    returns (n: nat, file': seq<byte>, stored': nat, sent': seq<seq<byte>>, stop: Option<Outcome>)
    requires buf.Length == DatagramSize
    modifies buf
    ensures var before := Upload.Run(conn, disk, Upload.State([Datagram(d)] + later, old(buf[..]), file, stored, sent));
            && (stop.Some? ==> before == Upload.Transcript(sent', file', stop.value))
            && (stop.None? && n == DatagramSize ==>
                  before == Upload.Run(conn, disk, Upload.State(later, buf[..], file', stored', sent')))
            && (stop.None? && n != DatagramSize ==> before == Upload.Transcript(sent', file', Completed))
  {
    ghost var st := Upload.State([Datagram(d)] + later, buf[..], file, stored, sent);
    Upload.ReceiveStep(conn, disk, st, d);
    assert st.inbound[1..] == later;
    file', stored', sent', stop := file, stored, sent, None;
    n := Receive(buf, d);
    var b := buf[..];
    if UnmarshalErr(b).Ok? {
      return n, file, stored, sent, Some(PeerError);
    }
    var pkt := UnmarshalData(b);
    if pkt.Fail? {
      return n, file, stored, sent, Some(BadPacket);
    }
    if n < 4 {
      // data[:n-4] is out of range
      return n, file, stored, sent, Some(Panicked);
    }
    if disk.failingWrite == Some(stored) {
      return n, file, stored, sent, Some(IoError);
    }
    assert pkt.value.payload[..n - 4] == b[4..n];
    file' := file + pkt.value.payload[..n - 4];
    stored' := stored + 1;
    if conn.failingWrite == Some(|sent|) {
      return n, file', stored', sent, Some(IoError);
    }
    sent' := sent + [MarshalAck(Ack(pkt.value.block))];
  }

  class TFTPServer {
    var writeAllowed: bool
    /** Configured but never consulted: uploads are created at the path the
        client names. */
    var writeDir: seq<byte>
    /** The payload every download serves; None is a nil slice. */
    var payload: Option<seq<byte>>
    var retries: uint8
    /** The read deadline in nanoseconds. */
    var timeout: int

    constructor (writeAllowed: bool, writeDir: seq<byte>, payload: Option<seq<byte>>,
                 retries: uint8, timeout: int)
      ensures this.writeAllowed == writeAllowed && this.writeDir == writeDir
      ensures this.payload == payload && this.retries == retries && this.timeout == timeout
    {
      this.writeAllowed := writeAllowed;
      this.writeDir := writeDir;
      this.payload := payload;
      this.retries := retries;
      this.timeout := timeout;
    }

    /** The bytes a download sends: a nil payload reads as empty. */
    function PayloadBytes(): seq<byte>
      reads this
    {
      if payload.Some? then payload.value else []
    }

    /** Serve on a listening socket, given as the results of its reads (None
        is a nil connection). Zero retries and zero timeout are replaced by
        the defaults; then every datagram is dispatched as Listen says, until
        a read fails. */
    method Serve(conn: Option<seq<ListenEvent>>) returns (actions: seq<Action>, result: ServeResult)
      modifies this
      ensures writeAllowed == old(writeAllowed) && writeDir == old(writeDir) && payload == old(payload)
      ensures conn.None? ==> result == NilConnection && actions == [] && unchanged(this)
      ensures conn.Some? && payload.None? ==> result == MissingPayload && actions == [] && unchanged(this)
      ensures conn.Some? && payload.Some? ==>
                retries == (if old(retries) == 0 then DefaultRetries else old(retries)) &&
                timeout == (if old(timeout) == 0 then DefaultTimeout else old(timeout)) &&
                actions == Listen(writeAllowed, conn.value).actions &&
                (result == ListenerFailed <==> Listen(writeAllowed, conn.value).stopped) &&
                (result == ListenerFailed || result == Listening)
    {
      if conn.None? {
        return [], NilConnection;
      }
      if payload.None? {
        return [], MissingPayload;
      }
      if retries == 0 {
        retries := DefaultRetries;
      }
      if timeout == 0 {
        timeout := DefaultTimeout;
      }
      var events := conn.value;
      actions := [];
      var i := 0;
      while i < |events|
        modifies {}
        invariant 0 <= i <= |events|
        invariant actions + Listen(writeAllowed, events[i..]).actions == Listen(writeAllowed, events).actions
        invariant Listen(writeAllowed, events[i..]).stopped == Listen(writeAllowed, events).stopped
      {
        match events[i] {
          case ListenFailed =>
            return actions, ListenerFailed;
          case Packet(from, d) =>
            var step := HandleDatagram(writeAllowed, from, d);
            ListenPacket(writeAllowed, events, i, actions);
            actions := actions + step;
        }
        i := i + 1;
      }
      result := Listening;
    }

    /** A download session on its own socket: the Data packets go out one
        block at a time, each retransmitted until its Ack arrives or the
        retry budget is spent. The requested filename plays no part: every
        download serves the configured payload. */
    method HandleRead(client: Addr, rrq: ReadReq, conn: Conn) returns (sent: seq<seq<byte>>, outcome: Outcome)
      ensures var t := Download.Session(PayloadBytes(), retries as nat, conn);
              sent == t.sent && outcome == t.outcome
    {
      var p := PayloadBytes();
      var r := retries as nat;
      ghost var target := Download.Session(p, r, conn);
      var dataPkt := new Data(p);
      var buf := new byte[DatagramSize](_ => 0);
      assert buf[..] == Zeros();
      var inbound := conn.inbound;
      sent := [];
      ghost var counts: seq<nat> := [];
      var n := DatagramSize;
      while n == DatagramSize
        invariant dataPkt.Valid() && dataPkt.payload == p && buf.Length == DatagramSize
        invariant n == DatagramSize ==>
                    |counts| < Download.Blocks(p) &&
                    dataPkt.offset == |counts| * BlockSize &&
                    dataPkt.block as int == |counts| % 0x1_0000 &&
                    Download.Run(p, r, conn.failingWrite,
                                 Download.State(|counts| + 1, r, inbound, buf[..], sent, counts)) == target
        invariant n != DatagramSize ==> sent == target.sent && target.outcome == Completed
        decreases |p| - dataPkt.offset + (if n == DatagramSize then 1 else 0)
      {
        ghost var k := |counts| + 1;
        var data := NextBlock(dataPkt, k);
        var acked;
        ghost var tries;
        acked, outcome, inbound, sent, tries :=
          SendBlock(p, r, conn.failingWrite, k, counts, target, data, dataPkt.block, buf, inbound, sent);
        if !acked {
          return;
        }
        counts := counts + [tries];
        n := |data|;
      }
      outcome := Completed;
    }

    /** An upload session on its own socket: Ack block 0, create the file,
        then store and acknowledge each Data datagram until a short one. */
    method HandleWrite(client: Addr, wrq: WriteReq, conn: Conn, disk: Upload.Disk)
      returns (sent: seq<seq<byte>>, file: seq<byte>, outcome: Outcome)
      ensures Upload.Transcript(sent, file, outcome) == Upload.Session(conn, disk)
    {
      ghost var target := Upload.Session(conn, disk);
      var buf := new byte[DatagramSize](_ => 0);
      assert buf[..] == Zeros();
      sent := [];
      file := [];
      if conn.failingWrite == Some(|sent|) {
        return sent, file, IoError;
      }
      sent := [MarshalAck(Ack(0))];
      if disk.createFails {
        return sent, file, IoError;
      }
      var inbound := conn.inbound;
      var stored: nat := 0;
      var n := DatagramSize;
      while n == DatagramSize
        invariant buf.Length == DatagramSize
        invariant n == DatagramSize ==>
                    Upload.Run(conn, disk, Upload.State(inbound, buf[..], file, stored, sent)) == target
        invariant n != DatagramSize ==> target == Upload.Transcript(sent, file, Completed)
        decreases |inbound| + (if n == DatagramSize then 1 else 0)
      {
        if inbound == [] {
          // the read has no deadline and waits for ever
          return sent, file, Stalled;
        }
        var ev := inbound[0];
        match ev {
          case Timeout =>
            return sent, file, IoError;
          case ReadFailed =>
            return sent, file, IoError;
          case Datagram(d) =>
            var stop;
            assert inbound == [Datagram(d)] + inbound[1..];
            n, file, stored, sent, stop := StoreDatagram(conn, disk, inbound[1..], d, buf, file, stored, sent);
            if stop.Some? {
              return sent, file, stop.value;
            }
        }
        inbound := inbound[1..];
      }
      outcome := Completed;
    }
  }
}

=== FILE: types.dfy ===
/** The TFTP wire codec: sizes, operation and error codes, and the five packet
    kinds with their big-endian layouts (section 5 of RFC 1350).

    Go strings are byte strings, so filenames, modes and messages are byte
    sequences here. */
module Types {

  newtype uint8 = x: int | 0 <= x < 0x100
  type byte = uint8
  newtype uint16 = x: int | 0 <= x < 0x1_0000

  /** Largest datagram the server reads or writes. */
  const DatagramSize: nat := 516
  /** Payload bytes carried by one full Data packet. */
  const BlockSize: nat := DatagramSize - 4

  // Operation codes (the first two bytes of every packet)
  const OpRRQ: uint16 := 1
  const OpWRQ: uint16 := 2
  const OpData: uint16 := 3
  const OpAck: uint16 := 4
  const OpErr: uint16 := 5

  // Error codes carried by an Err packet
  const ErrUnknown: uint16 := 0
  const ErrNotFound: uint16 := 1
  const ErrAccessViolation: uint16 := 2
  const ErrDiskFull: uint16 := 3
  const ErrIllegalOp: uint16 := 4
  const ErrUnknownID: uint16 := 5
  const ErrFileExists: uint16 := 6
  const ErrNoUser: uint16 := 7

  /** The only transfer mode the server accepts: "octet". */
  const Octet: seq<byte> := [0x6f, 0x63, 0x74, 0x65, 0x74]

  datatype Option<T> = None | Some(value: T)

  /** Why a decoder refused a buffer. */
  datatype DecodeError =
    | ShortBuffer      // fewer bytes than a fixed-size field needs
    | WrongOpcode      // the leading code names another packet kind
    | Unterminated     // a string field has no NUL terminator
    | EmptyMode        // a read request whose mode is empty
    | UnsupportedMode  // a mode other than "octet"
    | BadLength        // a Data buffer outside 4..516 bytes

  datatype Result<T> = Ok(value: T) | Fail(error: DecodeError)

  function Min(a: int, b: int): int { if a <= b then a else b }

  /** Big-endian encoding of a 16-bit value, as binary.Write writes it. */
  function BE(x: uint16): (r: seq<byte>)
    ensures |r| == 2 && r[0] as int * 0x100 + r[1] as int == x as int
  {
    [(x / 0x100) as byte, (x % 0x100) as byte]
  }

  /** The big-endian 16-bit value in the first two bytes, as binary.Read reads it. */
  function U16(p: seq<byte>): (x: uint16)
    requires |p| >= 2
    ensures BE(x) == p[..2]
  {
    (p[0] as int * 0x100 + p[1] as int) as uint16
  }

  lemma U16OfBE(x: uint16, rest: seq<byte>)
    ensures U16(BE(x) + rest) == x
  {
  }

  // ---------------------------------------------------------------------
  // NUL-terminated string fields

  /** What bytes.Buffer.ReadString(0) returns: the bytes up to and including
      the first NUL, the bytes left in the buffer, and whether a NUL was found
      (when it was not, Go reports io.EOF and hands back the whole input). */
  datatype Line = Line(token: seq<byte>, rest: seq<byte>, found: bool)

  /** Where the first NUL of p is, or |p| when there is none. */
  function NulIndex(p: seq<byte>): (i: nat)
    ensures i <= |p| && forall j :: 0 <= j < i ==> p[j] != 0
    ensures i < |p| ==> p[i] == 0
  {
    if p == [] || p[0] == 0 then 0 else 1 + NulIndex(p[1..])
  }

  function ReadString(p: seq<byte>): (r: Line)
    ensures r.token + r.rest == p
    ensures r.found <==> 0 in p
    ensures r.found ==> |r.token| > 0 && r.token[|r.token| - 1] == 0 && 0 !in r.token[..|r.token| - 1]
    ensures !r.found ==> r.rest == [] && 0 !in r.token
  {
    var i := NulIndex(p);
    if i < |p| then
      assert p[..i + 1][..i] == p[..i];
      Line(p[..i + 1], p[i + 1..], true)
    else
      Line(p, [], false)
  }

  /** strings.TrimRight(s, "\x00"): drop every trailing NUL. */
  function TrimNul(s: seq<byte>): (r: seq<byte>)
    ensures r <= s
    ensures r == [] || r[|r| - 1] != 0
    ensures forall i :: |r| <= i < |s| ==> s[i] == 0
  {
    if s != [] && s[|s| - 1] == 0 then TrimNul(s[..|s| - 1]) else s
  }

  /** The string a decoder keeps from a ReadString token is exactly the bytes
      before the first NUL (or the whole input when there is none). */
  lemma TrimmedToken(p: seq<byte>)
    ensures 0 !in TrimNul(ReadString(p).token)
    ensures ReadString(p).found ==> TrimNul(ReadString(p).token) + [0] + ReadString(p).rest == p
    ensures !ReadString(p).found ==> TrimNul(ReadString(p).token) == p
  {
    var l := ReadString(p);
    if l.found {
      TrimmedTerminated(l.token);
    } else {
      NulFreeUntrimmed(l.token);
    }
  }

  lemma TrimmedTerminated(token: seq<byte>)
    requires |token| > 0 && token[|token| - 1] == 0 && 0 !in token[..|token| - 1]
    ensures TrimNul(token) == token[..|token| - 1] && token == TrimNul(token) + [0]
  {
    var body := token[..|token| - 1];
    LastSplit(token);
    TrimNulDropsNul(body);
    NulFreeUntrimmed(body);
  }

  lemma LastSplit(token: seq<byte>)
    requires |token| > 0
    ensures token == token[..|token| - 1] + [token[|token| - 1]]
  {
  }

  lemma TrimNulDropsNul(s: seq<byte>)
    ensures TrimNul(s + [0]) == TrimNul(s)
  {
    assert (s + [0])[..|s|] == s;
  }

  lemma NulFreeUntrimmed(s: seq<byte>)
    requires 0 !in s
    ensures TrimNul(s) == s
  {
    if s != [] {
      assert s[|s| - 1] in s;
    }
  }

  /** ReadString on a NUL-free field followed by its terminator. */
  lemma {:induction false} ReadStringField(f: seq<byte>, rest: seq<byte>)
    requires 0 !in f
    ensures ReadString(f + [0] + rest) == Line(f + [0], rest, true)
    ensures TrimNul(f + [0]) == f
  {
    ReadStringToken(f, rest);
    var t := f + [0];
    assert t[..|t| - 1] == f;
    assert f == [] || f[|f| - 1] != 0;
  }

  lemma ReadStringToken(f: seq<byte>, rest: seq<byte>)
    requires 0 !in f
    ensures ReadString(f + [0] + rest) == Line(f + [0], rest, true)
  {
    var p := f + [0] + rest;
    var i := NulIndex(p);
    assert forall j :: 0 <= j < |f| ==> p[j] == f[j];
    assert p[|f|] == 0;
    assert i == |f|;
    assert p[..i + 1] == f + [0];
  }

  /** ASCII case folding; strings.ToLower agrees with it on every mode that
      can lower-case to "octet". */
  function LowerByte(c: byte): byte
  {
    if 0x41 <= c <= 0x5a then c + 0x20 else c
  }

  function ToLower(s: seq<byte>): (r: seq<byte>)
    ensures |r| == |s|
    ensures forall i :: 0 <= i < |r| ==> !(0x41 <= r[i] <= 0x5a)
    ensures forall i :: 0 <= i < |r| ==> r[i] == s[i] || r[i] as int == s[i] as int + 0x20
    ensures forall i :: 0 <= i < |s| && !(0x41 <= s[i] <= 0x5a) ==> r[i] == s[i]
  {
    seq(|s|, i requires 0 <= i < |s| => LowerByte(s[i]))
  }

  /** "octet" is already lower case. */
  lemma OctetIsLower()
    ensures ToLower(Octet) == Octet
  {
    forall i | 0 <= i < |Octet| ensures ToLower(Octet)[i] == Octet[i] {
      assert Octet[i] >= 0x61;
    }
  }

  // ---------------------------------------------------------------------
  // RRQ / WRQ:  opcode(2) . filename . 0 . mode . 0

  datatype WriteReq = WriteReq(filename: seq<byte>, mode: seq<byte>)
  datatype ReadReq = ReadReq(filename: seq<byte>, mode: seq<byte>)

  /** WriteReq.UnmarshalBinary. A missing terminator is not an error; the mode
      must be exactly "octet" (case-sensitive). */
  function UnmarshalWriteReq(p: seq<byte>): (r: Result<WriteReq>)
    ensures r.Ok? ==> |p| >= 2 && U16(p) == OpWRQ
    ensures r.Ok? ==> r.value.mode == Octet && 0 !in r.value.filename
    ensures |p| >= 2 && U16(p) != OpWRQ ==> r == Fail(WrongOpcode)
  {
    if |p| < 2 then Fail(ShortBuffer)
    else if U16(p) != OpWRQ then Fail(WrongOpcode)
    else
      var name := ReadString(p[2..]);
      var mode := ReadString(name.rest);
      TrimmedToken(p[2..]);
      var filename := TrimNul(name.token);
      var m := TrimNul(mode.token);
      if m != Octet then Fail(UnsupportedMode)
      else Ok(WriteReq(filename, m))
  }

  /** ReadReq.MarshalBinary: an empty mode is sent as "octet". */
  function MarshalReadReq(q: ReadReq): (r: seq<byte>)
    ensures |r| >= 4 && U16(r) == OpRRQ && r[|r| - 1] == 0
    ensures r[2..] == q.filename + [0] + (if q.mode == [] then Octet else q.mode) + [0]
  {
    var mode := if q.mode == [] then Octet else q.mode;
    BE(OpRRQ) + q.filename + [0] + mode + [0]
  }

  /** ReadReq.UnmarshalBinary. Both fields need their terminator, the mode
      must be non-empty and lower-case to "octet"; the raw mode is kept. */
  function UnmarshalReadReq(p: seq<byte>): (r: Result<ReadReq>)
    ensures r.Ok? ==> |p| >= 2 && U16(p) == OpRRQ
    ensures r.Ok? ==> ToLower(r.value.mode) == Octet && 0 !in r.value.filename
    ensures r.Ok? ==> r.value.filename + [0] + r.value.mode + [0] <= p[2..]
    ensures |p| >= 2 && U16(p) != OpRRQ ==> r == Fail(WrongOpcode)
  {
    if |p| < 2 then Fail(ShortBuffer)
    else if U16(p) != OpRRQ then Fail(WrongOpcode)
    else
      var name := ReadString(p[2..]);
      if !name.found then Fail(Unterminated)
      else
        var mode := ReadString(name.rest);
        if !mode.found then Fail(Unterminated)
        else
          var m := TrimNul(mode.token);
          if |m| == 0 then Fail(EmptyMode)
          else if ToLower(m) != Octet then Fail(UnsupportedMode)
          else
            TrimmedToken(p[2..]);
            FieldsPrefix(p[2..]);
            Ok(ReadReq(TrimNul(name.token), m))
  }

  /** Two NUL-terminated fields, trimmed, followed by their terminators, are
      a prefix of the input they were read from. */
  lemma FieldsPrefix(q: seq<byte>)
    requires ReadString(q).found && ReadString(ReadString(q).rest).found
    ensures TrimNul(ReadString(q).token) + [0] + TrimNul(ReadString(ReadString(q).rest).token) + [0] <= q
  {
    var a := ReadString(q);
    var b := ReadString(a.rest);
    TrimmedToken(q);
    TrimmedToken(a.rest);
    TwoFields(TrimNul(a.token), TrimNul(b.token), a.rest, b.rest, q);
  }

  lemma TwoFields(x: seq<byte>, y: seq<byte>, mid: seq<byte>, rest: seq<byte>, q: seq<byte>)
    requires x + [0] + mid == q && y + [0] + rest == mid
    ensures x + [0] + y + [0] <= q
  {
    var head := x + [0] + y + [0];
    assert q == head + rest;
    assert q[..|head|] == head;
  }

  /** A mode that lower-cases to "octet" is five NUL-free bytes. */
  lemma OctetModeShape(m: seq<byte>)
    requires ToLower(m) == Octet
    ensures |m| == 5 && 0 !in m
  {
    assert |ToLower(m)| == |m|;
    forall i | 0 <= i < |m| ensures m[i] != 0 {
      assert ToLower(m)[i] == LowerByte(m[i]) == Octet[i];
    }
  }

  /** Round trip: decoding an encoded request gives it back, an empty mode
      having become "octet", whatever bytes follow it in the buffer. */
  lemma ReadReqRoundTrip(q: ReadReq, rest: seq<byte>)
    requires 0 !in q.filename
    requires q.mode == [] || ToLower(q.mode) == Octet
    ensures UnmarshalReadReq(MarshalReadReq(q) + rest)
         == Ok(ReadReq(q.filename, if q.mode == [] then Octet else q.mode))
  {
    var mode := if q.mode == [] then Octet else q.mode;
    OctetIsLower();
    OctetModeShape(mode);
    var p := MarshalReadReq(q) + rest;
    assert p == BE(OpRRQ) + q.filename + [0] + (mode + [0] + rest);
    SplitRequest(OpRRQ, q.filename, mode + [0] + rest);
    ReadStringField(mode, rest);
  }

  /** A read request whose filename or mode has no NUL after it is refused,
      whatever the fields hold. */
  lemma ReadReqUnterminated(f: seq<byte>, m: seq<byte>)
    requires 0 !in f && 0 !in m
    ensures UnmarshalReadReq(BE(OpRRQ) + f) == Fail(Unterminated)
    ensures UnmarshalReadReq(BE(OpRRQ) + f + [0] + m) == Fail(Unterminated)
  {
    U16OfBE(OpRRQ, f);
    assert (BE(OpRRQ) + f)[2..] == f;
    var q := BE(OpRRQ) + f + [0] + m;
    SplitRequest(OpRRQ, f, m);
    assert ReadString(q[2..]).rest == m;
  }

  /** Opcode and first field of a request laid out as opcode . f . 0 . rest. */
  lemma SplitRequest(op: uint16, f: seq<byte>, rest: seq<byte>)
    requires 0 !in f
    ensures var p := BE(op) + f + [0] + rest;
            U16(p) == op && ReadString(p[2..]) == Line(f + [0], rest, true) && TrimNul(f + [0]) == f
  {
    var p := BE(op) + f + [0] + rest;
    assert p == BE(op) + (f + [0] + rest);
    U16OfBE(op, f + [0] + rest);
    assert p[2..] == f + [0] + rest;
    ReadStringField(f, rest);
  }

  /** The read-request mode check ignores case: "OCTET" and "Octet" pass,
      whatever follows the request. */
  lemma ReadReqModeIgnoresCase(f: seq<byte>, rest: seq<byte>)
    requires 0 !in f
    ensures UnmarshalReadReq(MarshalReadReq(ReadReq(f, [0x4f, 0x43, 0x54, 0x45, 0x54])) + rest).Ok?  // "OCTET"
    ensures UnmarshalReadReq(MarshalReadReq(ReadReq(f, [0x4f, 0x63, 0x74, 0x65, 0x74])) + rest).Ok?  // "Octet"
  {
    var upper: seq<byte> := [0x4f, 0x43, 0x54, 0x45, 0x54];
    var title: seq<byte> := [0x4f, 0x63, 0x74, 0x65, 0x74];
    assert ToLower(upper) == Octet;
    assert ToLower(title) == Octet;
    ReadReqRoundTrip(ReadReq(f, upper), rest);
    ReadReqRoundTrip(ReadReq(f, title), rest);
  }

  /** A read request with an empty mode field is refused, whatever follows. */
  lemma ReadReqEmptyMode(f: seq<byte>, rest: seq<byte>)
    requires 0 !in f
    ensures UnmarshalReadReq(BE(OpRRQ) + f + [0] + ([0] + rest)) == Fail(EmptyMode)
  {
    SplitRequest(OpRRQ, f, [0] + rest);
    ReadStringField([], rest);
    assert [] + [0] + rest == [0] + rest;
  }

  /** A read request whose terminated, non-empty mode does not lower-case to
      "octet" ("netascii", "mail") is refused, whatever follows. */
  lemma ReadReqOtherMode(f: seq<byte>, m: seq<byte>, rest: seq<byte>)
    requires 0 !in f && 0 !in m && m != [] && ToLower(m) != Octet
    ensures UnmarshalReadReq(BE(OpRRQ) + f + [0] + (m + [0] + rest)) == Fail(UnsupportedMode)
  {
    SplitRequest(OpRRQ, f, m + [0] + rest);
    ReadStringField(m, rest);
  }

  /** A write request with both fields terminated is accepted exactly when
      its mode is "octet", byte for byte; whatever follows is ignored. */
  lemma WriteReqMode(f: seq<byte>, m: seq<byte>, rest: seq<byte>)
    requires 0 !in f && 0 !in m
    ensures UnmarshalWriteReq(BE(OpWRQ) + f + [0] + (m + [0] + rest))
         == if m == Octet then Ok(WriteReq(f, Octet)) else Fail(UnsupportedMode)
  {
    var p := BE(OpWRQ) + f + [0] + (m + [0] + rest);
    SplitRequest(OpWRQ, f, m + [0] + rest);
    var name := ReadString(p[2..]);
    assert name.rest == m + [0] + rest;
    ReadStringField(m, rest);
  }

  /** The write-request mode check is case-sensitive: "OCTET" is refused,
      where a read request accepts it. */
  lemma WriteReqModeCaseSensitive(f: seq<byte>)
    requires 0 !in f
    ensures UnmarshalWriteReq(BE(OpWRQ) + f + [0] + ([0x4f, 0x43, 0x54, 0x45, 0x54] + [0] + [])) == Fail(UnsupportedMode)
  {
    var upper: seq<byte> := [0x4f, 0x43, 0x54, 0x45, 0x54];
    assert upper[0] != Octet[0];
    WriteReqMode(f, upper, []);
  }

  /** A missing terminator after the mode is not an error for a write request. */
  lemma WriteReqUnterminatedMode(f: seq<byte>)
    requires 0 !in f
    ensures UnmarshalWriteReq(BE(OpWRQ) + f + [0] + Octet) == Ok(WriteReq(f, Octet))
  {
    SplitRequest(OpWRQ, f, Octet);
    OctetNulFree();
    NulFreeUntrimmed(Octet);
    assert ReadString(Octet).token == Octet;
  }

  lemma OctetNulFree()
    ensures 0 !in Octet
  {
    forall i | 0 <= i < |Octet| ensures Octet[i] != 0 {
    }
  }

  // ---------------------------------------------------------------------
  // DATA:  opcode(2) . block(2) . payload(0..512)

  /** The fields of a decoded Data packet. */
  datatype DataPacket = DataPacket(block: uint16, payload: seq<byte>)

  /** The bytes Data.MarshalBinary writes for one block. */
  function DataBytes(block: uint16, chunk: seq<byte>): seq<byte>
  {
    BE(OpData) + BE(block) + chunk
  }

  /** Go's Data: a block counter and a reader over the payload, here the bytes
      and a cursor into them. MarshalBinary advances both. */
  class Data {
    var block: uint16
    const payload: seq<byte>
    var offset: nat

    ghost predicate Valid()
      reads this
    {
      offset <= |payload|
    }

    constructor (payload: seq<byte>)
      ensures Valid() && block == 0 && this.payload == payload && offset == 0
    {
      block := 0;
      this.payload := payload;
      offset := 0;
    }

    /** Bumps the block number (wrapping at 2^16) and emits it with the next
        at most 512 payload bytes, consuming them. */
    method MarshalBinary() returns (p: seq<byte>)
      requires Valid()
      modifies this
      ensures Valid()
      ensures block as int == (old(block) as int + 1) % 0x1_0000
      ensures offset == Min(old(offset) + BlockSize, |payload|)
      ensures p == DataBytes(block, payload[old(offset)..offset])
      ensures |p| == 4 + (offset - old(offset)) <= DatagramSize
    {
      block := ((block as int + 1) % 0x1_0000) as uint16;
      var end := Min(offset + BlockSize, |payload|);
      p := BE(OpData) + BE(block) + payload[offset..end];
      offset := end;
    }
  }

  /** Data.UnmarshalBinary: 4..516 bytes with opcode 3; the payload is the
      rest of the buffer. */
  function UnmarshalData(p: seq<byte>): (r: Result<DataPacket>)
    ensures r.Ok? <==> 4 <= |p| <= DatagramSize && U16(p) == OpData
    ensures r.Ok? ==> BE(r.value.block) == p[2..4] && r.value.payload == p[4..]
  {
    if |p| < 4 || |p| > DatagramSize then Fail(BadLength)
    else if U16(p) != OpData then Fail(WrongOpcode)
    else Ok(DataPacket(U16(p[2..]), p[4..]))
  }

  lemma DataRoundTrip(block: uint16, chunk: seq<byte>)
    requires |chunk| <= BlockSize
    ensures UnmarshalData(DataBytes(block, chunk)) == Ok(DataPacket(block, chunk))
  {
    var p := DataBytes(block, chunk);
    assert p == BE(OpData) + (BE(block) + chunk);
    U16OfBE(OpData, BE(block) + chunk);
    assert p[2..] == BE(block) + chunk;
    U16OfBE(block, chunk);
  }

  // ---------------------------------------------------------------------
  // ACK:  opcode(2) . block(2)

  datatype Ack = Ack(block: uint16)

  function MarshalAck(a: Ack): (r: seq<byte>)
    ensures |r| == 4
  {
    BE(OpAck) + BE(a.block)
  }

  /** Ack.UnmarshalBinary: opcode 4 and a block number; bytes after the fourth
      are never looked at. */
  function UnmarshalAck(p: seq<byte>): (r: Result<Ack>)
    ensures r.Ok? <==> |p| >= 4 && U16(p) == OpAck
    ensures r.Ok? ==> p[..4] == MarshalAck(r.value)
  {
    if |p| < 2 then Fail(ShortBuffer)
    else if U16(p) != OpAck then Fail(WrongOpcode)
    else if |p| < 4 then Fail(ShortBuffer)
    else
      assert p[..4] == p[..2] + p[2..][..2];
      Ok(Ack(U16(p[2..])))
  }

  /** An Ack is exactly [0, 4, hi, lo] and decodes back to itself, whatever
      follows it in the buffer. */
  lemma AckRoundTrip(a: Ack, trailing: seq<byte>)
    ensures MarshalAck(a) == [0, 4, (a.block / 0x100) as byte, (a.block % 0x100) as byte]
    ensures UnmarshalAck(MarshalAck(a) + trailing) == Ok(a)
  {
    var p := MarshalAck(a) + trailing;
    assert p == BE(OpAck) + (BE(a.block) + trailing);
    U16OfBE(OpAck, BE(a.block) + trailing);
    assert p[2..] == BE(a.block) + trailing;
    U16OfBE(a.block, trailing);
  }

  // ---------------------------------------------------------------------
  // ERROR:  opcode(2) . code(2) . message . 0

  /** Go's Err; the code is not range-checked against the known error codes. */
  datatype ErrPacket = ErrPacket(code: uint16, message: seq<byte>)

  function MarshalErr(e: ErrPacket): (r: seq<byte>)
    ensures |r| == 5 + |e.message| && U16(r) == OpErr && r[|r| - 1] == 0
    ensures U16(r[2..]) == e.code && r[4..] == e.message + [0]
  {
    BE(OpErr) + BE(e.code) + e.message + [0]
  }

  /** Err.UnmarshalBinary: opcode 5, a code and a NUL-terminated message. */
  function UnmarshalErr(p: seq<byte>): (r: Result<ErrPacket>)
    ensures r.Ok? <==> |p| >= 4 && U16(p) == OpErr && 0 in p[4..]
    ensures r.Ok? ==> BE(r.value.code) == p[2..4] && 0 !in r.value.message
  {
    if |p| < 2 then Fail(ShortBuffer)
    else if U16(p) != OpErr then Fail(WrongOpcode)
    else if |p| < 4 then Fail(ShortBuffer)
    else
      var msg := ReadString(p[4..]);
      if !msg.found then Fail(Unterminated)
      else
        TrimmedToken(p[4..]);
        assert p[2..][..2] == p[2..4];
        Ok(ErrPacket(U16(p[2..]), TrimNul(msg.token)))
  }

  /** Round trip for every code and every NUL-free message. */
  lemma ErrRoundTrip(e: ErrPacket)
    requires 0 !in e.message
    ensures UnmarshalErr(MarshalErr(e)) == Ok(e)
  {
    var p := MarshalErr(e);
    assert p == BE(OpErr) + (BE(e.code) + e.message + [0]);
    U16OfBE(OpErr, BE(e.code) + e.message + [0]);
    assert p[2..] == BE(e.code) + (e.message + [0]);
    U16OfBE(e.code, e.message + [0]);
    assert p[4..] == e.message + [0] + [];
    ReadStringField(e.message, []);
  }

  /** Every decoder checks its own opcode first, so no buffer is accepted by
      two of them. */
  lemma DecodersExclusive(p: seq<byte>)
    ensures UnmarshalReadReq(p).Ok? ==>
              !UnmarshalWriteReq(p).Ok? && !UnmarshalData(p).Ok? && !UnmarshalAck(p).Ok? && !UnmarshalErr(p).Ok?
    ensures UnmarshalWriteReq(p).Ok? ==> !UnmarshalData(p).Ok? && !UnmarshalAck(p).Ok? && !UnmarshalErr(p).Ok?
    ensures UnmarshalData(p).Ok? ==> !UnmarshalAck(p).Ok? && !UnmarshalErr(p).Ok?
    ensures UnmarshalAck(p).Ok? ==> !UnmarshalErr(p).Ok?
  {
  }
}

=== FILE: upload.dfy ===
/** The upload side of a transfer (handleWrite) as a state machine over the
    session socket's events: acknowledge the request with block 0, then
    store each Data datagram and acknowledge it, until a short one arrives. */
module Upload {
  import opened Types
  import opened Net

  /** The destination file: whether creating it fails, and the index
      (counting from 0) of the first write to it that fails, if any. */
  datatype Disk = Disk(createFails: bool, failingWrite: Option<nat>)

  /** Where an upload is: the reads still to happen, the reused receive
      buffer, the file written so far, how many writes went to the file, and
      the datagrams sent so far. */
  datatype State = State(inbound: seq<Event>, buf: seq<byte>, file: seq<byte>, stored: nat,
                         sent: seq<seq<byte>>)

  /** What an upload did: the datagrams it sent, the file it left, how it ended. */
  datatype Transcript = Transcript(sent: seq<seq<byte>>, file: seq<byte>, outcome: Outcome)

  /** One pass of the receive loop after another. Reads carry no deadline:
      when no event is left the session waits for ever. */
  function Run(conn: Conn, disk: Disk, st: State): Transcript
    requires |st.buf| == DatagramSize
    decreases |st.inbound|
  {
    if st.inbound == [] then Transcript(st.sent, st.file, Stalled)
    else match st.inbound[0]
      case Timeout => Transcript(st.sent, st.file, IoError)
      case ReadFailed => Transcript(st.sent, st.file, IoError)
      case Datagram(d) =>
        var n := Received(d);
        var buf := Overlay(st.buf, d);
        if UnmarshalErr(buf).Ok? then Transcript(st.sent, st.file, PeerError)
        else match UnmarshalData(buf)
          case Fail(_) => Transcript(st.sent, st.file, BadPacket)
          case Ok(pkt) =>
            if n < 4 then Transcript(st.sent, st.file, Panicked)
            else if disk.failingWrite == Some(st.stored) then Transcript(st.sent, st.file, IoError)
            else
              var file := st.file + buf[4..n];
              if conn.failingWrite == Some(|st.sent|) then Transcript(st.sent, file, IoError)
              else
                var sent := st.sent + [MarshalAck(Ack(pkt.block))];
                if n == DatagramSize then Run(conn, disk, State(st.inbound[1..], buf, file, st.stored + 1, sent))
                else Transcript(sent, file, Completed)
  }

  /** A whole upload: Ack 0 first, then the file is created, then the loop. */
  function Session(conn: Conn, disk: Disk): Transcript
  {
    if conn.failingWrite == Some(0) then Transcript([], [], IoError)
    else if disk.createFails then Transcript([MarshalAck(Ack(0))], [], IoError)
    else Run(conn, disk, State(conn.inbound, Zeros(), [], 0, [MarshalAck(Ack(0))]))
  }

  /** One pass of the receive loop on a datagram, case by case. */
  lemma ReceiveStep(conn: Conn, disk: Disk, st: State, d: seq<byte>)
    requires |st.buf| == DatagramSize && st.inbound != [] && st.inbound[0] == Datagram(d)
    ensures var buf := Overlay(st.buf, d);
            var n := Received(d);
            var t := Run(conn, disk, st);
            && (UnmarshalErr(buf).Ok? ==> t == Transcript(st.sent, st.file, PeerError))
            && (!UnmarshalErr(buf).Ok? && !UnmarshalData(buf).Ok? ==> t == Transcript(st.sent, st.file, BadPacket))
            && (!UnmarshalErr(buf).Ok? && UnmarshalData(buf).Ok? && n < 4 ==>
                  t == Transcript(st.sent, st.file, Panicked))
            && (!UnmarshalErr(buf).Ok? && UnmarshalData(buf).Ok? && n >= 4 && disk.failingWrite == Some(st.stored) ==>
                  t == Transcript(st.sent, st.file, IoError))
            && (!UnmarshalErr(buf).Ok? && UnmarshalData(buf).Ok? && n >= 4 && disk.failingWrite != Some(st.stored) ==>
                  var file := st.file + buf[4..n];
                  var sent := st.sent + [MarshalAck(Ack(UnmarshalData(buf).value.block))];
                  && (conn.failingWrite == Some(|st.sent|) ==> t == Transcript(st.sent, file, IoError))
                  && (conn.failingWrite != Some(|st.sent|) && n == DatagramSize ==>
                        t == Run(conn, disk, State(st.inbound[1..], buf, file, st.stored + 1, sent)))
                  && (conn.failingWrite != Some(|st.sent|) && n != DatagramSize ==>
                        t == Transcript(sent, file, Completed)))
  {
  }

  // ---------------------------------------------------------------------
  // What an upload sends

  predicate AllAcks(sent: seq<seq<byte>>)
  {
    forall j :: 0 <= j < |sent| ==> |sent[j]| == 4 && UnmarshalAck(sent[j]).Ok?
  }

  lemma {:induction false} RunSendsAcks(conn: Conn, disk: Disk, st: State)
    requires |st.buf| == DatagramSize && AllAcks(st.sent)
    ensures var t := Run(conn, disk, st);
            AllAcks(t.sent) && st.sent <= t.sent
    decreases |st.inbound|
  {
    if st.inbound != [] && st.inbound[0].Datagram? {
      var d := st.inbound[0].bytes;
      var n := Received(d);
      var buf := Overlay(st.buf, d);
      var pkt := UnmarshalData(buf);
      ReceiveStep(conn, disk, st, d);
      if !UnmarshalErr(buf).Ok? && pkt.Ok? && n >= 4 && disk.failingWrite != Some(st.stored)
         && conn.failingWrite != Some(|st.sent|) {
        var sent := st.sent + [MarshalAck(Ack(pkt.value.block))];
        AckIsAck(pkt.value.block);
        assert AllAcks(sent);
        if n == DatagramSize {
          RunSendsAcks(conn, disk, State(st.inbound[1..], buf, st.file + buf[4..n], st.stored + 1, sent));
        }
      }
    }
  }

  lemma AckIsAck(block: uint16)
    ensures |MarshalAck(Ack(block))| == 4 && UnmarshalAck(MarshalAck(Ack(block))).Ok?
  {
    AckRoundTrip(Ack(block), []);
    assert MarshalAck(Ack(block)) + [] == MarshalAck(Ack(block));
  }

  /** An upload sends nothing but Acks, and its first datagram is Ack 0, sent
      before any data is read; it sends nothing at all only when that first
      write fails. */
  lemma SessionSendsAcks(conn: Conn, disk: Disk)
    ensures var t := Session(conn, disk);
            AllAcks(t.sent) &&
            (t.sent == [] <==> conn.failingWrite == Some(0)) &&
            (t.sent != [] ==> t.sent[0] == MarshalAck(Ack(0)))
  {
    if conn.failingWrite != Some(0) {
      var ack0 := MarshalAck(Ack(0));
      AckRoundTrip(Ack(0), []);
      assert ack0 + [] == ack0;
      assert AllAcks([ack0]);
      if !disk.createFails {
        RunSendsAcks(conn, disk, State(conn.inbound, Zeros(), [], 0, [ack0]));
      }
    }
  }

  // ---------------------------------------------------------------------
  // A complete upload

  /** Data datagrams forming one upload: every one but the last a full 516
      bytes, the last one shorter. Block numbers are arbitrary: the server
      neither checks their order nor drops duplicates. */
  predicate Uploading(ds: seq<seq<byte>>)
  {
    |ds| >= 1 &&
    (forall i :: 0 <= i < |ds| ==> 4 <= |ds[i]| <= DatagramSize && U16(ds[i]) == OpData) &&
    (forall i :: 0 <= i < |ds| - 1 ==> |ds[i]| == DatagramSize) &&
    |ds[|ds| - 1]| < DatagramSize
  }

  function Datagrams(ds: seq<seq<byte>>): seq<Event>
  {
    seq(|ds|, i requires 0 <= i < |ds| => Datagram(ds[i]))
  }

  /** The bytes after each datagram's 4-byte header, in arrival order. */
  function Payloads(ds: seq<seq<byte>>): seq<byte>
    requires forall i :: 0 <= i < |ds| ==> |ds[i]| >= 4
  {
    if ds == [] then [] else ds[0][4..] + Payloads(ds[1..])
  }

  /** An Ack echoing each datagram's block number. */
  function AcksOf(ds: seq<seq<byte>>): seq<seq<byte>>
    requires forall i :: 0 <= i < |ds| ==> |ds[i]| >= 4
  {
    seq(|ds|, i requires 0 <= i < |ds| => MarshalAck(Ack(U16(ds[i][2..]))))
  }

  /** One pass of the loop on a Data datagram with no failures: store, ack, and
      go on exactly when the datagram was a full 516 bytes. */
  lemma DataStep(conn: Conn, disk: Disk, st: State, d: seq<byte>)
    requires |st.buf| == DatagramSize && st.inbound != [] && st.inbound[0] == Datagram(d)
    requires 4 <= |d| <= DatagramSize && U16(d) == OpData
    requires conn.failingWrite == None && disk.failingWrite == None
    ensures var next := State(st.inbound[1..], Overlay(st.buf, d), st.file + d[4..], st.stored + 1,
                              st.sent + [MarshalAck(Ack(U16(d[2..])))]);
            |d| == DatagramSize ==> Run(conn, disk, st) == Run(conn, disk, next)
    ensures |d| < DatagramSize ==>
            Run(conn, disk, st) == Transcript(st.sent + [MarshalAck(Ack(U16(d[2..])))], st.file + d[4..], Completed)
  {
    var buf := Overlay(st.buf, d);
    OverlayHead(st.buf, d, |d|);
    assert buf[..2] == d[..2] && buf[2..][..2] == d[2..][..2];
    assert U16(buf) == OpData && U16(buf[2..]) == U16(d[2..]);
    assert buf[4..|d|] == d[4..];
  }

  lemma UploadingTail(ds: seq<seq<byte>>, rest: seq<Event>)
    requires Uploading(ds)
    ensures (Datagrams(ds) + rest)[0] == Datagram(ds[0])
    ensures (Datagrams(ds) + rest)[1..] == Datagrams(ds[1..]) + rest
    ensures |ds| > 1 ==> Uploading(ds[1..])
    ensures AcksOf(ds) == [MarshalAck(Ack(U16(ds[0][2..])))] + AcksOf(ds[1..])
  {
    DatagramsTail(ds, rest);
    var tail := ds[1..];
    assert forall i :: 0 <= i < |tail| ==> tail[i] == ds[i + 1];
    var acks := AcksOf(ds);
    assert forall i :: 1 <= i < |acks| ==> acks[i] == AcksOf(tail)[i - 1];
  }

  lemma PayloadsTail(ds: seq<seq<byte>>)
    requires |ds| >= 1 && forall i :: 0 <= i < |ds| ==> |ds[i]| >= 4
    ensures Payloads(ds) == ds[0][4..] + Payloads(ds[1..])
    ensures |ds| == 1 ==> Payloads(ds) == ds[0][4..]
  {
  }

  lemma DatagramsTail(ds: seq<seq<byte>>, rest: seq<Event>)
    requires |ds| >= 1
    ensures (Datagrams(ds) + rest)[0] == Datagram(ds[0])
    ensures (Datagrams(ds) + rest)[1..] == Datagrams(ds[1..]) + rest
  {
    assert Datagrams(ds)[1..] == Datagrams(ds[1..]);
  }

  lemma {:induction false} RunUploading(conn: Conn, disk: Disk, st: State, ds: seq<seq<byte>>, rest: seq<Event>)
    requires |st.buf| == DatagramSize && Uploading(ds)
    requires st.inbound == Datagrams(ds) + rest
    requires conn.failingWrite == None && disk.failingWrite == None
    ensures Run(conn, disk, st) == Transcript(st.sent + AcksOf(ds), st.file + Payloads(ds), Completed)
    decreases |ds|
  {
    var d := ds[0];
    UploadingTail(ds, rest);
    PayloadsTail(ds);
    DataStep(conn, disk, st, d);
    var a := MarshalAck(Ack(U16(d[2..])));
    if |ds| > 1 {
      var next := State(st.inbound[1..], Overlay(st.buf, d), st.file + d[4..], st.stored + 1, st.sent + [a]);
      RunUploading(conn, disk, next, ds[1..], rest);
      assert st.sent + [a] + AcksOf(ds[1..]) == st.sent + AcksOf(ds);
      assert st.file + d[4..] + Payloads(ds[1..]) == st.file + Payloads(ds);
    } else {
      assert st.file + d[4..] == st.file + Payloads(ds);
      assert st.sent + [a] == st.sent + AcksOf(ds);
    }
  }

  /** A client that sends a well-formed upload and no errors occur: the server
      acks block 0, then acks each datagram with its own block number, the
      file holds the datagrams' payloads in arrival order, and the upload
      completes on the short datagram; whatever arrives after it is unread. */
  lemma CompleteUpload(ds: seq<seq<byte>>, rest: seq<Event>)
    requires Uploading(ds)
    ensures Session(Conn(Datagrams(ds) + rest, None), Disk(false, None))
         == Transcript([MarshalAck(Ack(0))] + AcksOf(ds), Payloads(ds), Completed)
  {
    RunUploading(Conn(Datagrams(ds) + rest, None), Disk(false, None),
                 State(Datagrams(ds) + rest, Zeros(), [], 0, [MarshalAck(Ack(0))]), ds, rest);
  }

  // ---------------------------------------------------------------------
  // Datagrams that end an upload without an Ack

  /** An Err packet ends the upload with nothing stored and nothing sent; so
      does a datagram that is neither Err nor Data, which the download side
      would have ignored. */
  lemma StopsWithoutAck(conn: Conn, disk: Disk, st: State)
    requires |st.buf| == DatagramSize && st.inbound != [] && st.inbound[0].Datagram?
    ensures IsErrDatagram(st.inbound[0].bytes) ==>
              Run(conn, disk, st) == Transcript(st.sent, st.file, PeerError)
    ensures var d := st.inbound[0].bytes;
            |d| >= 2 && U16(d) != OpData && U16(d) != OpErr ==>
              Run(conn, disk, st) == Transcript(st.sent, st.file, BadPacket)
  {
    var d := st.inbound[0].bytes;
    var buf := Overlay(st.buf, d);
    if IsErrDatagram(d) {
      ErrDatagramDecodes(st.buf, d);
    }
    if |d| >= 2 {
      OverlayHead(st.buf, d, 2);
      assert buf[..2] == d[..2];
    }
  }

  /** The Go code slices data[:n-4] after a successful Data decode of the whole
      buffer, so a 2-byte datagram [0, 3] panics. */
  lemma ShortDataPanics(rest: seq<Event>)
    ensures Session(Conn([Datagram([0, 3])] + rest, None), Disk(false, None)).outcome == Panicked
  {
    var buf := Overlay(Zeros(), [0, 3]);
    OverlayHead(Zeros(), [0, 3], 2);
    assert buf[..2] == [0, 3];
    assert U16(buf) == OpData;
  }
}
